=== FILE: README.md ===
# React 19 compatibility linter — a Dafny model of its core

The linter is meant to scan the compiled dependency modules of a webpack
build and flag imports and uses of the names its restriction table lists,
the React APIs that React 19 removes. The rule sees only four syntactic
forms: named imports, `X.name` on a bound namespace,
`const x = require('m').name`, and destructuring of a bound namespace or a
`require` call. These go unreported, in the code and in the model:
- computed access (`ReactDOM['render']`);
- an alias (`const X = ReactDOM; X.render`);
- a re-export (`export { render } from 'react-dom'`);
- `require('m').name` used anywhere but as a declarator's initialiser.

This project models the three parts that decide what gets flagged and
where it belongs:

- **The `no-restricted-imports` ESLint rule** (`src/no-restricted-imports.ts`).
  - Its input is a table of restricted modules, each with a list of
    forbidden export names.
  - It reports three things:
    - a named import of a listed name (`restrictedImport`);
    - access to a listed name through a namespace or default import, or
      through a variable bound to `require('m')` (`restrictedNamespaceAccess`);
    - destructuring of a listed name from such a variable, or from
      `require('m')` directly (`restrictedDestructuring`).
  - It also reports `const x = require('m').name`, which is checked against
    every entry's list, as the code does.
  - In the model:
    - the rule is a fold of `Step` over the AST nodes in traversal order;
    - the rule's mutable `Map` of namespace identifiers is the
      `namespaces` field of a `State`;
    - `context.report` appends a `Report` to the state.
- **Package attribution** (`src/utils/parseFilePath.ts`,
  `src/utils/getPackageJsonPath.ts`, `src/utils/extractPackageName.ts`).
  These map a file path inside a dependency tree to three things:
  - its package name;
  - the path of that package's `package.json`;
  - the file's path inside the package.

  The package is anchored at the last `node_modules` segment, and scoped
  packages (`@scope/name`) take two segments. The two ways these functions
  throw are a `PathError`:
  - the path has no `node_modules` segment;
  - `node_modules` is the last segment. In JavaScript this is a `TypeError`
    from reading `startsWith` on `undefined`.
- **The module filter of `DependencyModuleListPlugin`**
  (`src/DependencyModuleListPlugin.ts`). It keeps a module when:
  - its resource is defined and non-empty;
  - the resource ends in `.js`, `.jsx`, `.ts`, `.tsx`, `.mjs` or `.cjs`,
    ignoring case;
  - the resource contains the text `node_modules`.

  Kept modules stay in compilation order.

Modules:

- `Wrappers`: `Option`, `Result` and the `Map.get` lookup `Get`.
- `Strings`: the JavaScript string operations used, over `seq<char>`:
  - `split` and `join` on one character, with `Split` and `Join` proved
    inverse;
  - `includes`;
  - ASCII lower-casing.
- `PackagePath`: the three path functions and their agreement. Each
  function is a `split` step followed by a function of the resulting
  segments.
- `RestrictedImports`: the rule as a fold, with its reports justified by
  the table.
- `RuleCases`: the rule's default table, the scenarios of the rule's test
  file and three cases read off the rule's code, as exact report lists, with
  a few helper facts about the table.
- `ModuleFilter`: `shouldIncludeModule` and the collecting loop.

Two points where the code does not do what its surroundings suggest; the
model follows the code:

- `src/cli.ts:13-15` reads `result.packages`, but `runLinter`
  (`src/runLinter.ts:4-31`) returns nothing. There is no aggregation of
  reports into packages or versions to model.
- `require('m').p` is matched against every entry's list, not only the
  entry of `m` (`src/no-restricted-imports.ts:184`).
- ESLint is pointed at the modules-list file itself, not at the modules it
  names. `runLinter` passes its argument straight to `eslint.lintFiles`
  (`src/runLinter.ts:11`), and every caller passes the path of the list:
  `src/cli.ts:10-13`, `bin/react19-compat-linter.js:13-15` and
  `sample/runSample.js:5-6`. The model covers the rule and the filter that
  writes the list, not this hand-over.

## Model

| member | source | states |
|---|---|---|
| RestrictedImports.FindRestriction | src/no-restricted-imports.ts:78-81 | The entry chosen for a module is the first one with that module name; there is none exactly when no entry names the module. |
| RestrictedImports.AnyEntryLists | src/no-restricted-imports.ts:184 | True exactly when some entry of the table, for any module, lists the name. |
| RestrictedImports.RequiredModule | src/no-restricted-imports.ts:146-156 | A module is recognised exactly for a call of the identifier `require` with one argument that is a literal with a truthy value. The module is that literal's text. |
| RestrictedImports.LiteralText | src/no-restricted-imports.ts:156 | No contract of its own: the text of a string literal, or for another literal the `toString()` text it carries (`"42"`, `"true"`, `"null"`). `RequiredModule` states it is the module name a `require` yields. |
| RestrictedImports.Truthy | src/no-restricted-imports.ts:153 | A string literal is truthy exactly when it is non-empty. Any other literal carries its JavaScript truthiness. |
| RestrictedImports.ExportNameText | src/no-restricted-imports.ts:86-89 | The checked name is the identifier's name, or the string literal's value for `import { "a-b" as c }`. |
| RestrictedImports.CheckSpecifier | src/no-restricted-imports.ts:85-108 | A named specifier adds a `restrictedImport` under its imported name exactly when the entry lists that name, and binds nothing. A default or namespace specifier binds its local to the module and reports nothing. |
| RestrictedImports.ReportsFor | src/no-restricted-imports.ts:92-99 | One report per name, in order, each carrying the message kind, that name and the module. |
| RestrictedImports.CheckSpecifiers | src/no-restricted-imports.ts:84-109 | The reports gain one `restrictedImport` per named specifier the entry lists, under its imported name and in specifier order. Every default or namespace local is bound to the module. Every other binding is kept. |
| RestrictedImports.VisitImportDeclaration | src/no-restricted-imports.ts:74-110 | Reports are only appended, and each new one is justified by the table. Bindings change only for the default or namespace locals of this declaration. |
| RestrictedImports.VisitMemberExpression | src/no-restricted-imports.ts:111-142 | Bindings are unchanged and at most one report is added. That report is a justified `restrictedNamespaceAccess` naming the property and the module the object is bound to. |
| RestrictedImports.PropertyReports | src/no-restricted-imports.ts:228-242 | There are no more reports than properties. Each is a `restrictedDestructuring` for the module, with a key that the entry lists. |
| RestrictedImports.PropertyReportsSound | src/no-restricted-imports.ts:228-229 | Every reported name is the identifier key of a `Property` of the pattern: rest elements and other keys give nothing. |
| RestrictedImports.CheckDestructuring | src/no-restricted-imports.ts:199-243 | Destructuring binds nothing and only appends reports justified by the table. |
| RestrictedImports.VisitVariableDeclarator | src/no-restricted-imports.ts:143-244 | Only the declared identifier can be rebound. Reports are only appended, each justified. |
| RestrictedImports.Step | src/no-restricted-imports.ts:73-245 | One node only appends justified reports. A name the node cannot bind keeps its module. |
| RestrictedImports.RunFrom | src/no-restricted-imports.ts:69-246 | Traversal from a state keeps that state's reports as a prefix and adds only justified ones. |
| RestrictedImports.Lint | src/no-restricted-imports.ts:69-246 | Every report of a file names a module that has an entry, and a name that some entry lists. |
| RestrictedImports.ReportsForAppend | src/no-restricted-imports.ts:84 | Reports for a concatenation of names are the reports of each part, in order. |
| RestrictedImports.RestrictedNamedImportsListed | src/no-restricted-imports.ts:91 | Every name the import filter selects is listed by the entry. |
| RestrictedImports.UnlistedModuleImportIsInert | src/no-restricted-imports.ts:78-81 | An import from a module without an entry leaves the state unchanged: no report and no binding. |
| RestrictedImports.NamedImportReportedIff | src/no-restricted-imports.ts:85-100 | A single named import is reported, under the imported name and not the alias, if and only if the module's entry lists it. It binds nothing. |
| RestrictedImports.ImportReports | src/no-restricted-imports.ts:84-100 | The reports of an import from a listed module are exactly one per listed named specifier, in order. |
| RestrictedImports.RestrictedNamedImportsIff | src/no-restricted-imports.ts:85-91 | A name is selected if and only if the entry lists it and some named specifier imports it. |
| RestrictedImports.NonIdentifierObjectIsInert | src/no-restricted-imports.ts:111-114 | Member access whose object is not an identifier, such as `require('m').p` outside a declarator, leaves the state unchanged. |
| RestrictedImports.NamespaceAccessReportedIff | src/no-restricted-imports.ts:114-141 | `X.p` is reported if and only if `X` is bound to a non-empty module whose entry lists `p`. Otherwise the state is unchanged. |
| RestrictedImports.RequireBindsWithoutReport | src/no-restricted-imports.ts:146-158 | `const X = require('m')` binds `X` to `m` and reports nothing, whether or not `m` has an entry. |
| RestrictedImports.RequireMemberChecksEveryList | src/no-restricted-imports.ts:162-196 | `require('m').p` is reported against `m` exactly when `m` has an entry and any entry lists `p`. It binds nothing and adds no destructuring report, whatever the declared pattern. |
| RestrictedImports.DestructuringFromNamespace | src/no-restricted-imports.ts:199-243 | Destructuring a bound identifier reports the pattern's listed keys for its module. Destructuring an unbound one does nothing. |
| RestrictedImports.FalsyRequireIsIgnored | src/no-restricted-imports.ts:152-153 | `const X = require(<falsy literal>)`, such as `require('')`, binds nothing and reports nothing. |
| RestrictedImports.DestructuringFromRequire | src/no-restricted-imports.ts:206-243 | Destructuring `require('m')` reports the pattern's listed keys when `m` has an entry. It binds nothing. |
| RestrictedImports.PropertyReportsAppend | src/no-restricted-imports.ts:228 | Destructuring reports of a pattern are those of its parts, in order. |
| RestrictedImports.PropertyReportsComplete | src/no-restricted-imports.ts:229-240 | Every plain key the entry lists is reported. |
| RestrictedImports.RunFromAppend | src/no-restricted-imports.ts:71-73 | Linting a concatenation of node lists continues from the state the first list leaves, so bindings carry across nodes. |
| RestrictedImports.LintPrefix | src/no-restricted-imports.ts:92 | Later nodes never retract a report: the reports of a prefix of the file are a prefix of the file's reports. |
| RestrictedImports.EmptyTableReportsNothing | src/no-restricted-imports.ts:70 | With no restrictions configured, nothing is reported. |
| RestrictedImports.UnboundNameKeepsModule | src/no-restricted-imports.ts:71 | A name that none of the nodes can bind keeps its module through the traversal. |
| RestrictedImports.NamespaceAccessAfterImport | src/no-restricted-imports.ts:101-141 | After a default or namespace import of a listed module, and nodes that do not rebind its local, access to a listed name is the last report of the file. |
| RestrictedImports.LaterBindingWins | src/no-restricted-imports.ts:107 | When two imports bind the same local, the later module is the one remembered. |
| RestrictedImports.LaterRequireRebinds | src/no-restricted-imports.ts:157 | `const X = require('m2')` after an import binding `X` leaves `X` standing for `m2`. |
| RuleCases.AllowedNamedImport | src/no-restricted-imports.test.ts:44-47 | `import { createPortal } from 'react-dom'` gives no report. |
| RuleCases.UnlistedNameFromListedModule | src/no-restricted-imports.test.ts:71-74 | `import { useState } from 'react'` gives no report. |
| RuleCases.EachRemovedReactDomImportReported | src/no-restricted-imports.test.ts:238-306 | A named import of any of the eight removed `react-dom` APIs gives exactly one `restrictedImport` for it. |
| RuleCases.CreateFactoryReported | src/no-restricted-imports.test.ts:224-236 | `import { createFactory } from 'react'` is reported against `react`. |
| RuleCases.SeveralNamedImports | src/no-restricted-imports.test.ts:92-111 | `findDOMNode, render, createPortal` gives two reports, in that order, and none for `createPortal`. |
| RuleCases.ReactDomEntry | src/no-restricted-imports.ts:46-61 | The default table's entry for `react-dom` is its first one. |
| RuleCases.SeveralNamedImportNames | src/no-restricted-imports.test.ts:93 | Of `findDOMNode, render, createPortal`, the default table selects `findDOMNode` and `render`. |
| RuleCases.AliasedImport | src/no-restricted-imports.test.ts:113-125 | `findDOMNode as findNode` is reported under `findDOMNode`. |
| RuleCases.ReactDomBound | src/no-restricted-imports.test.ts:48-55 | A default or namespace import of `react-dom` alone gives no report. Its one step binds `ReactDOM` to `react-dom`. |
| RuleCases.NamespaceAccessReported | src/no-restricted-imports.test.ts:127-139 | `ReactDOM.findDOMNode` after a namespace import is one `restrictedNamespaceAccess`. |
| RuleCases.NamespaceAccessAllowed | src/no-restricted-imports.test.ts:57-60 | `ReactDOM.createPortal` after a namespace import gives no report. |
| RuleCases.DefaultImportAccessAllowed | src/no-restricted-imports.test.ts:61-64 | `ReactDOM.createRoot` after a default import gives no report. |
| RuleCases.DestructuringAllowed | src/no-restricted-imports.test.ts:66-69 | `const { createPortal } = ReactDOM` after a namespace import gives no report. |
| RuleCases.DestructuringReported | src/no-restricted-imports.test.ts:155-167 | `const { findDOMNode } = ReactDOM` after a namespace import is one `restrictedDestructuring`. |
| RuleCases.DefaultImportAccess | src/no-restricted-imports.test.ts:141-153 | `ReactDOM.render` after a default import is one `restrictedNamespaceAccess`. |
| RuleCases.DestructuringMixed | src/no-restricted-imports.test.ts:169-188 | `const { render, createPortal, findDOMNode } = ReactDOM` gives two `restrictedDestructuring` reports, in pattern order. |
| RuleCases.MixedPatternReports | src/no-restricted-imports.test.ts:170 | The listed keys of that pattern are `render` and `findDOMNode`. |
| RuleCases.TwoModules | src/no-restricted-imports.test.ts:190-222 | With two one-name entries, imports from both modules are reported in file order. |
| RuleCases.RequireThenAccess | src/no-restricted-imports.ts:146-158 | `const ReactDOM = require('react-dom'); ReactDOM.render` is reported like the import form. |
| RuleCases.RequireMemberStatementIgnored | src/no-restricted-imports.ts:113-114 | `require('react-dom').render` as a statement gives no report. |
| RuleCases.RequireMemberFromOtherList | src/no-restricted-imports.ts:175-195 | `require('react').findDOMNode` is reported against `react`, although only the `react-dom` entry lists the name. |
| PackagePath.Take | src/utils/parseFilePath.ts:24-25 | `slice(0, n)` is the prefix of length `min(n, length)`. |
| PackagePath.Drop | src/utils/parseFilePath.ts:34 | `slice(n)` is what remains after that prefix. |
| PackagePath.IsScopeName | src/utils/parseFilePath.ts:22 | `startsWith('@')`: the segment is non-empty and its first character is `@`. |
| PackagePath.RootLength | src/utils/parseFilePath.ts:23-31 | The root is the first `index + 2` segments, through the one name segment after the marker, or the first `index + 3` exactly when the name is scoped. |
| PackagePath.Normalize | src/utils/parseFilePath.ts:9 | `split('\\').join('/')` equals replacing every backslash by a slash and keeping every other character. |
| PackagePath.LastIndexOf | src/utils/parseFilePath.ts:10 | The index holds the value and no later index does. It is -1 when the value is absent. |
| PackagePath.ParseFilePath | src/utils/parseFilePath.ts:7-41 | Fails with the "does not contain node_modules" error, carrying the path, if and only if no segment is `node_modules`. Fails with the missing-segment error if and only if `node_modules` is the last segment. |
| PackagePath.ParseParts | src/utils/parseFilePath.ts:10-40 | The same two error conditions, stated over given segments. |
| PackagePath.GetPackageJsonPath | src/utils/getPackageJsonPath.ts:1-21 | Fails with the "does not contain node_modules" error if and only if no segment is `node_modules`. |
| PackagePath.PackageJsonPathOfParts | src/utils/getPackageJsonPath.ts:4-20 | The same error condition over given segments. |
| PackagePath.ExtractPackageName | src/utils/extractPackageName.ts:3-19 | Fails with the "does not contain node_modules" error if and only if no segment of the split on the platform separator is `node_modules`. |
| PackagePath.NameOfParts | src/utils/extractPackageName.ts:5-18 | The same error condition over given segments. |
| PackagePath.PartsAtLastMarker | src/utils/parseFilePath.ts:16-34 | Anchored at the last `node_modules`, the result has three parts. The name is the next segment, or the next two joined by `/` when scoped. The `package.json` path is the root segments plus `package.json`. The relative path is the rest. |
| PackagePath.LastMarkerIsLastIndex | src/utils/parseFilePath.ts:10 | `lastIndexOf` finds the last `node_modules` segment. |
| PackagePath.ParseUnscoped | src/utils/parseFilePath.ts:27-34 | An unscoped package's name is the segment after the last marker. The root is every segment up to and including that name, and the rest is the relative path. |
| PackagePath.ParseScoped | src/utils/parseFilePath.ts:22-34 | A scoped package's name is `@scope/name`. The root is every segment up to and including both name segments, clamped at the end of a path that stops at the scope. |
| PackagePath.ParseNestedUsesInnermost | src/utils/parseFilePath.ts:10 | With nested `node_modules`, the package is the one after the innermost marker. |
| PackagePath.Segments | src/utils/parseFilePath.ts:9 | There is at least one segment; `SegmentsAreSlashFree` and `SegmentsRejoin` give the rest. |
| PackagePath.SegmentsRejoin | src/utils/getPackageJsonPath.ts:3 | Joining the segments with `/` gives the input with every backslash replaced by `/`. |
| PackagePath.SegmentsAreSlashFree | src/utils/parseFilePath.ts:9 | No segment contains `/` or `\`. |
| PackagePath.PartsOutputsAvoid | src/utils/parseFilePath.ts:33-34 | Segments free of a character give outputs free of it. |
| PackagePath.ParseOutputsAreNormalised | src/utils/parseFilePath.ts:9 | No output of `parseFilePath` contains a backslash. |
| PackagePath.JoinRootAndRest | src/utils/parseFilePath.ts:33-34 | Joining the root with `package.json` ends in `/package.json` and strips back to the root directory. The root directory and the rest join to the whole. |
| PackagePath.PartsReconstruct | src/utils/parseFilePath.ts:25-34 | The package directory followed by `/` and the relative path gives back the joined segments, or, when the relative path is empty, the directory alone does. |
| PackagePath.ParseReconstructsPath | src/utils/parseFilePath.ts:9-34 | The package directory followed by `/` and the relative path is the normalised input, or, when the relative path is empty, the directory alone is. |
| PackagePath.ParseIgnoresSlashSpelling | src/utils/parseFilePath.ts:9 | Two spellings of a path that differ only in `/` versus `\` give the same result and fail alike. |
| PackagePath.GetPackageJsonPathAgrees | src/utils/getPackageJsonPath.ts:1-21 | `getPackageJsonPath` succeeds exactly when `parseFilePath` does, returns its `packageJsonPath`, and fails with the same error. |
| PackagePath.RootPrefixOfParts | src/utils/getPackageJsonPath.ts:14-20 | Over slash-free segments, the `package.json` path splits into the root segments followed by `package.json`. |
| PackagePath.PackageJsonPathIsRootPrefix | src/utils/getPackageJsonPath.ts:13-20 | The `package.json` path splits into a prefix of the input's segments plus `package.json`. The prefix is every segment up to and including the package name: one segment after the last marker, two when scoped. |
| PackagePath.ExtractAgreesWithParse | src/utils/extractPackageName.ts:4-18 | On a path without backslashes and with `/` as the separator, `extractPackageName` returns `parseFilePath`'s package name and fails alike. |
| PackagePath.NameOfPartsAgrees | src/utils/extractPackageName.ts:7-18 | On the same segments, the two functions find the same name and the same error. |
| PackagePath.ExtractAtLastMarker | src/utils/extractPackageName.ts:13-18 | A scoped name joins its two segments with `/` whatever the platform separator. An unscoped name is the one segment after the last marker. |
| PackagePath.ExtractDoesNotNormalise | src/utils/extractPackageName.ts:4-9 | With `/` as the separator, a path without `/` is one segment, so it is rejected with the not-in-`node_modules` error unless it is `node_modules` itself (that path fails with the missing-segment error instead). |
| PackagePath.BackslashPathSegments | src/utils/parseFilePath.ts:9 | `node_modules\name` normalises to the two segments `node_modules` and `name`. |
| PackagePath.BackslashPathParsedNotExtracted | src/utils/extractPackageName.ts:4 | `node_modules\name` is attributed to `name` by `parseFilePath`. With `/` as the separator, `extractPackageName` rejects it. |
| Strings.Split | src/utils/parseFilePath.ts:9 | `split` always yields at least one piece, and no piece contains the separator. |
| Strings.Join | src/utils/parseFilePath.ts:33-34 | No contract of its own. `Strings.SplitJoin` and `Strings.JoinSplit` show it inverts `Split`, and `Strings.JoinAppend` that it distributes over concatenation with one separator. |
| Strings.JoinAppend | src/utils/parseFilePath.ts:33 | Joining two non-empty piece lists puts one separator between their joins. |
| Strings.Replace | src/utils/parseFilePath.ts:9 | Each occurrence of one character is replaced by another, and the length is kept. |
| Strings.JoinSplitReplaces | src/utils/parseFilePath.ts:9 | `split(a).join(b)` replaces every `a` by `b`. |
| Strings.JoinSplit | src/utils/parseFilePath.ts:33-34 | Joining the pieces of a split on the same separator gives the string back. |
| Strings.SplitJoin | src/utils/parseFilePath.ts:33-34 | Splitting a join of separator-free pieces gives the pieces back. |
| Strings.Includes | src/DependencyModuleListPlugin.ts:37 | `includes` is true exactly when the text occurs at some index. |
| Strings.ToLower | src/DependencyModuleListPlugin.ts:35 | Lower-casing keeps the length and folds each ASCII letter. |
| ModuleFilter.EndsWithFolded | src/DependencyModuleListPlugin.ts:35 | A right-to-left match holds exactly when the last characters, lower-cased, are the suffix. |
| ModuleFilter.FoldedSuffixIsLowerSuffix | src/DependencyModuleListPlugin.ts:35 | Matching with folded letters is lower-casing the resource and then matching. |
| ModuleFilter.EndsWithExtensionOf | src/DependencyModuleListPlugin.ts:35 | True exactly when the lower-cased resource ends with a dot and one of the extensions. |
| ModuleFilter.HasJsExtension | src/DependencyModuleListPlugin.ts:35-37 | True exactly when the lower-cased resource ends with a dot and one of the six extensions. |
| ModuleFilter.ShouldIncludeModule | src/DependencyModuleListPlugin.ts:36-38 | True exactly when the resource ends in one of the six extensions, in any case, and contains `node_modules` anywhere. |
| ModuleFilter.Kept | src/DependencyModuleListPlugin.ts:21-22 | A module's resource is kept exactly when it is defined, non-empty and accepted by the filter. |
| ModuleFilter.Collected | src/DependencyModuleListPlugin.ts:19-25 | The list is no longer than the list of modules. |
| ModuleFilter.CollectedAccepted | src/DependencyModuleListPlugin.ts:22-23 | Every resource in the list is non-empty and passes the filter. |
| ModuleFilter.CollectedStep | src/DependencyModuleListPlugin.ts:20-24 | One more module extends the list by its kept resource, if any. |
| ModuleFilter.CollectModules | src/DependencyModuleListPlugin.ts:19-25 | The loop yields the kept resources of the modules, in compilation order. |
| ModuleFilter.PushIfIncluded | src/DependencyModuleListPlugin.ts:21-23 | One pass of the loop body, testing the resource as the source does, turns the list for the first `i` modules into the list for the first `i + 1`. |
| ModuleFilter.CollectedAppend | src/DependencyModuleListPlugin.ts:20 | Collecting a concatenation of module lists collects each part, in order. |
| ModuleFilter.CollectedMember | src/DependencyModuleListPlugin.ts:19-25 | A resource is in the list exactly when some module keeps it. |
| ModuleFilter.ToLowerIdempotent | src/DependencyModuleListPlugin.ts:35 | Lower-casing twice is lower-casing once. |
| ModuleFilter.ExtensionIgnoresCase | src/DependencyModuleListPlugin.ts:35 | The extension test judges a resource as it judges its lower-cased form. |
| ModuleFilter.UpperCaseExtensionAccepted | src/DependencyModuleListPlugin.ts:35 | `x.JS` has an accepted extension. |
| ModuleFilter.ExtensionsEndInSOrX | src/DependencyModuleListPlugin.ts:35 | Every alternative of the pattern ends in `s` or `x`. |
| ModuleFilter.ExtensionIsAnchored | src/DependencyModuleListPlugin.ts:35 | A resource whose last character, folded, is not `s` or `x` is rejected: the pattern is anchored at the end. |
| ModuleFilter.MapAndJsonRejected | src/DependencyModuleListPlugin.ts:35 | `x.js.map` and `x.json` are rejected. |
| Wrappers.Get | src/no-restricted-imports.ts:119 | `Map.get` gives the bound value when the key is present and nothing otherwise. |

## Left out

- AST parsing, traversal order and node locations are not modelled. The nodes the rule visits are given as a list, in the order ESLint visits them.
- The rule's `meta` block (message texts, option schema) is not modelled. Reports carry the message id and the two data fields.
- Node kinds the rule ignores are not modelled: a `MemberExpression` whose object or property is not an identifier, and other declarator initialisers. They are one catch-all constructor each. The `computed` flag of a member expression is ignored, as the code ignores it.
- `src/utils/getPackageVersion.ts` is not part of this model: it reads `package.json` from disk, calls `JSON.parse` and keeps a cache.
- `src/runLinter.ts`, `src/cli.ts`, `src/index.ts`, `src/eslint.config.ts`, `src/types.ts`, `bin/` and `sample/` are not part of this model: they are process, file and ESLint plumbing.
- The `cli.ts` code reads `result.packages`, but `runLinter` returns nothing. There is no aggregation of reports by package or version to model.
- The webpack hooks and the JSON write of `DependencyModuleListPlugin.ts` (lines 11-18 and 26-32) are not modelled. `CollectModules` takes the compilation's modules as a sequence.
- The missing-segment error is a `TypeError` in JavaScript. Here it is the error value `MissingPackageSegment`, with no message text.
- `Strings.ToLower` folds only ASCII letters. This is how a regular expression with the `i` flag and without the `u` flag matches an ASCII pattern, so no non-ASCII folding is modelled.
- RestrictedImports.Lint: justification asks only that SOME entry lists the reported name, not the module's own entry. This is the weakest form that also covers the `require('m').p` reports of line 184. The per-node lemmas `NamedImportReportedIff`, `NamespaceAccessReportedIff` and `DestructuringFromNamespace` state the module's own entry.
- ModuleFilter.CollectModules: its contract equates the result with `Collected`. Membership is stated separately by `ModuleFilter.CollectedMember`.
- The path cases of `src/utils/parseFilePath.test.ts` and `src/utils/getPackageJsonPath.test.ts` have no literal lemmas. They are covered by the general lemmas: `ParseUnscoped`, `ParseScoped`, `ParseNestedUsesInnermost`, `ParseIgnoresSlashSpelling`, `PackageJsonPathIsRootPrefix` and `ParseFilePath`'s error conditions.

=== FILE: module_filter.dfy ===
/** The dependency-list webpack plugin's choice of modules: a compiled
    module is listed when its resource path is a JavaScript or TypeScript
    file from under a `node_modules` directory, and the list keeps the
    compilation's order. */
module ModuleFilter {
  import opened Wrappers
  import opened Strings
  import PackagePath

  /** The alternatives of the regular expression `/\.(js|jsx|ts|tsx|mjs|cjs)$/i`. */
  const JsExtensions: seq<string> := ["js", "jsx", "ts", "tsx", "mjs", "cjs"]

  /** The last `|suffix|` characters of `s`, lower-cased, are `suffix`. */
  predicate FoldedSuffix(s: string, suffix: string)
  {
    |suffix| <= |s| && forall j :: 0 <= j < |suffix| ==> ToLowerChar(s[|s| - |suffix| + j]) == suffix[j]
  }

  /** `s` ends with the lower-case `suffix` when letters of `s` are compared
      case-insensitively: matched right to left, one character at a time. */
  function EndsWithFolded(s: string, suffix: string): (b: bool)
    ensures b <==> FoldedSuffix(s, suffix)
    decreases |suffix|
  {
    if |suffix| == 0 then true
    else if |s| == 0 then false
    else
      var n := |suffix| - 1;
      var b := ToLowerChar(s[|s| - 1]) == suffix[n] && EndsWithFolded(s[..|s| - 1], suffix[..n]);
      assert b <==> FoldedSuffix(s, suffix) by {
        if |suffix| <= |s| {
          var init := s[..|s| - 1];
          assert forall k :: 0 <= k < |init| ==> init[k] == s[k];
        }
      }
      b
  }

  /** Matching with folded letters is lower-casing and then matching. */
  lemma FoldedSuffixIsLowerSuffix(s: string, suffix: string)
    ensures FoldedSuffix(s, suffix) <==> EndsWith(ToLower(s), suffix)
  {
    if |suffix| <= |s| {
      var tail := ToLower(s)[|s| - |suffix|..];
      assert |tail| == |suffix|;
      assert forall j :: 0 <= j < |suffix| ==> tail[j] == ToLowerChar(s[|s| - |suffix| + j]);
      if FoldedSuffix(s, suffix) {
        assert forall j :: 0 <= j < |suffix| ==> tail[j] == suffix[j];
        assert tail == suffix;
      }
      if EndsWith(ToLower(s), suffix) {
        assert forall j :: 0 <= j < |suffix| ==> ToLowerChar(s[|s| - |suffix| + j]) == tail[j];
      }
    }
  }

  /** The resource ends with a dot and one of the extensions, in any letter case. */
  function EndsWithExtensionOf(resource: string, extensions: seq<string>): (b: bool)
    ensures b <==> exists i :: 0 <= i < |extensions| && EndsWith(ToLower(resource), "." + extensions[i])
    decreases |extensions|
  {
    if |extensions| == 0 then false
    else if EndsWithFolded(resource, "." + extensions[0]) then
      FoldedSuffixIsLowerSuffix(resource, "." + extensions[0]);
      true
    else
      FoldedSuffixIsLowerSuffix(resource, "." + extensions[0]);
      var b := EndsWithExtensionOf(resource, extensions[1..]);
      assert b ==> exists i :: 0 <= i < |extensions| && EndsWith(ToLower(resource), "." + extensions[i]) by {
        if b {
          var i :| 0 <= i < |extensions[1..]| && EndsWith(ToLower(resource), "." + extensions[1..][i]);
          assert extensions[i + 1] == extensions[1..][i];
        }
      }
      assert (exists i :: 0 <= i < |extensions| && EndsWith(ToLower(resource), "." + extensions[i])) ==> b by {
        if exists i :: 0 <= i < |extensions| && EndsWith(ToLower(resource), "." + extensions[i]) {
          var i :| 0 <= i < |extensions| && EndsWith(ToLower(resource), "." + extensions[i]);
          assert i > 0;
          assert extensions[1..][i - 1] == extensions[i];
        }
      }
      b
  }

  /** `jsExtensions.test(resource)`: the lower-cased resource ends with a dot
      and one of the six extensions. */
  predicate HasJsExtension(resource: string): (b: bool)
    ensures b <==> exists i :: 0 <= i < |JsExtensions| && EndsWith(ToLower(resource), "." + JsExtensions[i])
  {
    EndsWithExtensionOf(resource, JsExtensions)
  }

  /** `shouldIncludeModule`: a JavaScript or TypeScript extension, and the
      text `node_modules` anywhere in the path, not necessarily as a whole
      directory name. */
  function ShouldIncludeModule(resource: string): (b: bool)
    ensures b <==>
      (exists i :: 0 <= i < |JsExtensions| && EndsWith(ToLower(resource), "." + JsExtensions[i]))
      && (exists k :: OccursAt(resource, PackagePath.NodeModules, k))
  {
    HasJsExtension(resource) && Includes(resource, PackagePath.NodeModules)
  }

  /** A module of the compilation; `resource` is undefined for modules that
      do not come from a file. */
  datatype CompiledModule = CompiledModule(resource: Option<string>)

  /** The resource the loop pushes for one module, if any: a defined,
      non-empty resource the filter accepts. */
  function Kept(m: CompiledModule): (r: Option<string>)
    ensures r.Some? <==> m.resource.Some? && m.resource.value != "" && ShouldIncludeModule(m.resource.value)
    ensures r.Some? ==> r == m.resource
  {
    if m.resource.Some? && m.resource.value != "" && ShouldIncludeModule(m.resource.value) then m.resource else None
  }

  /** The list the plugin writes: the kept resources, in compilation order. */
  function Collected(modules: seq<CompiledModule>): (resources: seq<string>)
    ensures |resources| <= |modules|
    decreases |modules|
  {
    if |modules| == 0 then []
    else
      var first := Kept(modules[0]);
      (if first.Some? then [first.value] else []) + Collected(modules[1..])
  }

  /** The loop at the start of the `processAssets` callback. */
  method CollectModules(modules: seq<CompiledModule>) returns (collected: seq<string>)
    ensures collected == Collected(modules)
  {
    collected := [];
    var i := 0;
    while i < |modules|
      invariant 0 <= i <= |modules|
      invariant collected == Collected(modules[..i])
    {
      collected := PushIfIncluded(modules, i, collected);
      i := i + 1;
    }
    assert modules[..|modules|] == modules;
  }

  /** The body of the loop for the `i`-th module: its resource is pushed
      when it is defined, non-empty and accepted by `shouldIncludeModule`. */
  method PushIfIncluded(modules: seq<CompiledModule>, i: int, collected: seq<string>) returns (next: seq<string>)
    requires 0 <= i < |modules| && collected == Collected(modules[..i])
    ensures next == Collected(modules[..i + 1])
  {
    var resource := modules[i].resource;
    CollectedStep(modules, i);
    if resource.Some? && resource.value != "" && ShouldIncludeModule(resource.value) {
      next := collected + [resource.value];
    } else {
      next := collected;
    }
  }

  /** One more module extends the list by its kept resource, if any. */
  lemma CollectedStep(modules: seq<CompiledModule>, i: int)
    requires 0 <= i < |modules|
    ensures var kept := Kept(modules[i]);
      Collected(modules[..i + 1]) == Collected(modules[..i]) + (if kept.Some? then [kept.value] else [])
  {
    var kept := Kept(modules[i]);
    assert [modules[i]][1..] == [];
    assert Collected([modules[i]]) == (if kept.Some? then [kept.value] else []) + Collected([]);
    CollectedAppend(modules[..i], [modules[i]]);
    assert modules[..i + 1] == modules[..i] + [modules[i]];
  }

  /** Collecting a concatenation collects each part, in order. */
  lemma {:induction false} CollectedAppend(a: seq<CompiledModule>, b: seq<CompiledModule>)
    ensures Collected(a + b) == Collected(a) + Collected(b)
    decreases |a|
  {
    if |a| == 0 {
      assert a + b == b;
    } else {
      var first := Kept(a[0]);
      var head := if first.Some? then [first.value] else [];
      assert (a + b)[0] == a[0];
      assert (a + b)[1..] == a[1..] + b;
      assert Collected(a + b) == head + Collected(a[1..] + b);
      CollectedAppend(a[1..], b);
      assert head + (Collected(a[1..]) + Collected(b)) == (head + Collected(a[1..])) + Collected(b);
    }
  }

  /** Some module keeps the resource `r`. */
  predicate KeptBySome(modules: seq<CompiledModule>, r: string)
  {
    exists i :: 0 <= i < |modules| && Kept(modules[i]) == Some(r)
  }

  /** A resource is collected exactly when some module keeps it. */
  lemma {:induction false} CollectedMember(modules: seq<CompiledModule>, r: string)
    ensures r in Collected(modules) <==> KeptBySome(modules, r)
    decreases |modules|
  {
    if |modules| > 0 {
      var rest := modules[1..];
      CollectedMember(rest, r);
      if KeptBySome(rest, r) {
        var i :| 0 <= i < |rest| && Kept(rest[i]) == Some(r);
        assert modules[i + 1] == rest[i];
      }
      if KeptBySome(modules, r) {
        var i :| 0 <= i < |modules| && Kept(modules[i]) == Some(r);
        if i > 0 {
          assert modules[i] == rest[i - 1];
        }
      }
    }
  }

  /** Every listed resource is non-empty and passes the filter. */
  lemma CollectedAccepted(modules: seq<CompiledModule>, r: string)
    requires r in Collected(modules)
    ensures r != "" && ShouldIncludeModule(r)
  {
    CollectedMember(modules, r);
    var i :| 0 <= i < |modules| && Kept(modules[i]) == Some(r);
  }

  /** Lower-casing is idempotent. */
  lemma ToLowerIdempotent(s: string)
    ensures ToLower(ToLower(s)) == ToLower(s)
  {
    assert forall i :: 0 <= i < |s| ==> ToLowerChar(ToLowerChar(s[i])) == ToLowerChar(s[i]);
  }

  /** The extension test ignores letter case: `a.JS` is judged like `a.js`. */
  lemma ExtensionIgnoresCase(resource: string)
    ensures HasJsExtension(resource) == HasJsExtension(ToLower(resource))
  {
    ToLowerIdempotent(resource);
  }

  /** Upper-case extensions are accepted: `x.JS` passes. */
  lemma UpperCaseExtensionAccepted()
    ensures HasJsExtension("x.JS")
  {
    assert FoldedSuffix("x.JS", "." + JsExtensions[0]);
  }

  /** Every alternative of the extension pattern ends in `s` or `x`. */
  lemma ExtensionsEndInSOrX(i: int)
    requires 0 <= i < |JsExtensions|
    ensures |JsExtensions[i]| > 0 && JsExtensions[i][|JsExtensions[i]| - 1] in "sx"
  {
    if i == 0 { assert JsExtensions[i] == "js"; }
    else if i == 1 { assert JsExtensions[i] == "jsx"; }
    else if i == 2 { assert JsExtensions[i] == "ts"; }
    else if i == 3 { assert JsExtensions[i] == "tsx"; }
    else if i == 4 { assert JsExtensions[i] == "mjs"; }
    else { assert JsExtensions[i] == "cjs"; }
  }

  /** The extension must end the resource: the last character of every
      alternative is `s` or `x`, so `x.js.map` and `x.json` are rejected. */
  lemma ExtensionIsAnchored(resource: string)
    requires |resource| > 0 && ToLowerChar(resource[|resource| - 1]) !in "sx"
    ensures !HasJsExtension(resource)
  {
    var low := ToLower(resource);
    assert low[|low| - 1] !in "sx";
    forall i | 0 <= i < |JsExtensions| ensures !EndsWith(low, "." + JsExtensions[i]) {
      var e := "." + JsExtensions[i];
      ExtensionsEndInSOrX(i);
      assert e[|e| - 1] in "sx";
      assert |e| <= |low| ==> low[|low| - |e|..][|e| - 1] == low[|low| - 1];
    }
  }

  /** A source map and a JSON file are not listed. */
  lemma MapAndJsonRejected()
    ensures !HasJsExtension("x.js.map")
    ensures !HasJsExtension("x.json")
  {
    ExtensionIsAnchored("x.js.map");
    ExtensionIsAnchored("x.json");
  }
}

=== FILE: package_path.dfy ===
/** Attribution of a file inside a dependency tree to its package: the
    package name, the path of its `package.json`, and the file's path inside
    the package. Three functions of the linter do this with the same
    segment arithmetic: `parseFilePath` and `getPackageJsonPath` first turn
    backslashes into slashes and split on `/`; `extractPackageName` splits
    on the platform separator, given here as a parameter.

    Each function is written as the split that produces `parts` followed by
    a function of `parts` that carries the rest of the source's body. */
module PackagePath {
  import opened Wrappers
  import opened Strings

  const NodeModules: string := "node_modules"
  const PackageJson: string := "package.json"

  /** The record `parseFilePath` returns. */
  datatype ParsedFilePath = ParsedFilePath(packageName: string, packageJsonPath: string, relativeFilePath: string)

  /** The two ways the three functions throw.
      `NotInNodeModules` is the `Error` "Path does not contain node_modules: <path>";
      `MissingPackageSegment` is the `TypeError` raised by `packageParts[0].startsWith`
      when `node_modules` is the last segment and `packageParts[0]` is undefined. */
  datatype PathError = NotInNodeModules(filePath: string) | MissingPackageSegment

  /** `xs.slice(0, n)` for a non-negative `n`: clamped to the length. */
  function Take<T>(xs: seq<T>, n: nat): (r: seq<T>)
    ensures |r| == Min(n, |xs|)
    ensures r <= xs
  {
    if n <= |xs| then xs[..n] else xs
  }

  /** `xs.slice(n)` for a non-negative `n`: empty past the end. */
  function Drop<T>(xs: seq<T>, n: nat): (r: seq<T>)
    ensures Take(xs, n) + r == xs
  {
    if n <= |xs| then xs[n..] else []
  }

  function Min(a: int, b: int): int
  {
    if a <= b then a else b
  }

  /** `xs.lastIndexOf(x)`: the last index holding `x`, or -1. */
  function LastIndexOf(xs: seq<string>, x: string): (i: int)
    ensures -1 <= i < |xs|
    ensures i >= 0 ==> xs[i] == x
    ensures forall j :: i < j < |xs| ==> xs[j] != x
    decreases |xs|
  {
    if |xs| == 0 then -1
    else if xs[|xs| - 1] == x then |xs| - 1
    else LastIndexOf(xs[..|xs| - 1], x)
  }

  /** `segment.startsWith('@')`: the segment names an npm scope. */
  function IsScopeName(segment: string): (b: bool)
    ensures b <==> |segment| > 0 && segment[0] == '@'
  {
    StartsWith(segment, "@")
  }

  /** `k` is the position of the last `node_modules` segment of `parts`. */
  predicate IsLastMarker(parts: seq<string>, k: int)
  {
    && 0 <= k < |parts|
    && parts[k] == NodeModules
    && forall j :: k < j < |parts| ==> parts[j] != NodeModules
  }

  /** The number of leading segments that make up the package root: through
      the name segment, or through the second segment of a scoped name. */
  function RootLength(nodeModulesIndex: nat, firstPackagePart: string): (n: nat)
    ensures nodeModulesIndex + 2 <= n <= nodeModulesIndex + 3
    ensures n == nodeModulesIndex + 3 <==> IsScopeName(firstPackagePart)
  {
    if IsScopeName(firstPackagePart) then nodeModulesIndex + 3 else nodeModulesIndex + 2
  }

  /** `filePath.split('\\').join('/')`. */
  function Normalize(filePath: string): (n: string)
    ensures n == Replace(filePath, '\\', '/')
  {
    JoinSplitReplaces(filePath, '\\', '/');
    Join(Split(filePath, '\\'), '/')
  }

  /** The `parts` of `parseFilePath` and `getPackageJsonPath`: the path with
      backslashes turned into `/`, split on `/`. `SegmentsAreSlashFree` and
      `SegmentsRejoin` characterise them. */
  function Segments(filePath: string): (parts: seq<string>)
    ensures |parts| >= 1
  {
    Split(Normalize(filePath), '/')
  }

  /*** The three functions ***/

  /** `parseFilePath(filePath)`. */
  function ParseFilePath(filePath: string): (r: Result<ParsedFilePath, PathError>)
    ensures r == Failure(NotInNodeModules(filePath)) <==> NodeModules !in Segments(filePath)
    ensures r == Failure(MissingPackageSegment) <==> Segments(filePath)[|Segments(filePath)| - 1] == NodeModules
  {
    ParseParts(filePath, Segments(filePath))
  }

  /** The body of `parseFilePath` after `parts` is computed. */
  function ParseParts(filePath: string, parts: seq<string>): (r: Result<ParsedFilePath, PathError>)
    requires |parts| >= 1
    ensures r == Failure(NotInNodeModules(filePath)) <==> NodeModules !in parts
    ensures r == Failure(MissingPackageSegment) <==> parts[|parts| - 1] == NodeModules
  {
    var nodeModulesIndex := LastIndexOf(parts, NodeModules);
    if nodeModulesIndex == -1 then
      Failure(NotInNodeModules(filePath))
    else
      var packageParts := parts[nodeModulesIndex + 1..];
      if |packageParts| == 0 then
        Failure(MissingPackageSegment)
      else
        var isScoped := IsScopeName(packageParts[0]);
        var packageName := if isScoped then Join(Take(packageParts, 2), '/') else packageParts[0];
        var relativePathStartIndex := RootLength(nodeModulesIndex, packageParts[0]);
        var packageRootParts := Take(parts, relativePathStartIndex);
        Success(ParsedFilePath(
                  packageName,
                  Join(packageRootParts + [PackageJson], '/'),
                  Join(Drop(parts, relativePathStartIndex), '/')))
  }

  /** `getPackageJsonPath(filePath)`. */
  function GetPackageJsonPath(filePath: string): (r: Result<string, PathError>)
    ensures r == Failure(NotInNodeModules(filePath)) <==> NodeModules !in Segments(filePath)
  {
    PackageJsonPathOfParts(filePath, Segments(filePath))
  }

  /** The body of `getPackageJsonPath` after `parts` is computed. */
  function PackageJsonPathOfParts(filePath: string, parts: seq<string>): (r: Result<string, PathError>)
    ensures r == Failure(NotInNodeModules(filePath)) <==> NodeModules !in parts
  {
    var nodeModulesIndex := LastIndexOf(parts, NodeModules);
    if nodeModulesIndex == -1 then
      Failure(NotInNodeModules(filePath))
    else
      var packageParts := parts[nodeModulesIndex + 1..];
      if |packageParts| == 0 then
        Failure(MissingPackageSegment)
      else
        var packageRootParts :=
          if IsScopeName(packageParts[0]) then Take(parts, nodeModulesIndex + 3)
          else Take(parts, nodeModulesIndex + 2);
        Success(Join(packageRootParts + [PackageJson], '/'))
  }

  /** `extractPackageName(filePath)` with `path.sep` passed as `sep`. */
  function ExtractPackageName(filePath: string, sep: char): (r: Result<string, PathError>)
    ensures r == Failure(NotInNodeModules(filePath)) <==> NodeModules !in Split(filePath, sep)
  {
    NameOfParts(filePath, Split(filePath, sep))
  }

  /** The body of `extractPackageName` after `parts` is computed. */
  function NameOfParts(filePath: string, parts: seq<string>): (r: Result<string, PathError>)
    ensures r == Failure(NotInNodeModules(filePath)) <==> NodeModules !in parts
  {
    var nodeModulesIndex := LastIndexOf(parts, NodeModules);
    if nodeModulesIndex == -1 then
      Failure(NotInNodeModules(filePath))
    else
      var packageParts := parts[nodeModulesIndex + 1..];
      if |packageParts| == 0 then
        Failure(MissingPackageSegment)
      else if IsScopeName(packageParts[0]) then
        Success(Join(Take(packageParts, 2), '/'))
      else
        Success(packageParts[0])
  }

  /*** Where the package is anchored ***/

  /** The layout `parseFilePath` reports for segments whose last
      `node_modules` is at `k`: the name, the root length and the remainder. */
  lemma PartsAtLastMarker(filePath: string, parts: seq<string>, k: int)
    requires IsLastMarker(parts, k) && k + 1 < |parts|
    ensures var end := Min(RootLength(k, parts[k + 1]), |parts|);
      ParseParts(filePath, parts) == Success(ParsedFilePath(
        if IsScopeName(parts[k + 1]) then Join(parts[k + 1..end], '/') else parts[k + 1],
        Join(parts[..end] + [PackageJson], '/'),
        Join(parts[end..], '/')))
  {
    LastMarkerIsLastIndex(parts, k);
    var packageParts := parts[k + 1..];
    var rootLength := RootLength(k, parts[k + 1]);
    var end := Min(rootLength, |parts|);
    ParsePartsFound(filePath, parts, k);
    assert Take(parts, rootLength) == parts[..end] by {
      if rootLength <= |parts| {
        assert end == rootLength;
      }
    }
    assert Drop(parts, rootLength) == parts[end..] by {
      if rootLength <= |parts| {
        assert end == rootLength;
      }
    }
    assert (if IsScopeName(packageParts[0]) then Join(Take(packageParts, 2), '/') else packageParts[0])
      == (if IsScopeName(parts[k + 1]) then Join(parts[k + 1..end], '/') else parts[k + 1]) by {
      assert packageParts[0] == parts[k + 1];
      if IsScopeName(parts[k + 1]) {
        assert Take(packageParts, 2) == parts[k + 1..end];
      }
    }
  }

  /** `parseFilePath` once `lastIndexOf` has found the marker at `k` with a
      segment after it, before the slices are simplified. */
  lemma ParsePartsFound(filePath: string, parts: seq<string>, k: int)
    requires IsLastMarker(parts, k) && k + 1 < |parts|
    ensures var packageParts := parts[k + 1..];
      var rootLength := RootLength(k, parts[k + 1]);
      ParseParts(filePath, parts) == Success(ParsedFilePath(
        if IsScopeName(packageParts[0]) then Join(Take(packageParts, 2), '/') else packageParts[0],
        Join(Take(parts, rootLength) + [PackageJson], '/'),
        Join(Drop(parts, rootLength), '/')))
  {
    LastMarkerIsLastIndex(parts, k);
    var packageParts := parts[k + 1..];
    assert |packageParts| > 0 && packageParts[0] == parts[k + 1];
    var rootLength := RootLength(k, parts[k + 1]);
    var name := if IsScopeName(packageParts[0]) then Join(Take(packageParts, 2), '/') else packageParts[0];
    var root := Join(Take(parts, rootLength) + [PackageJson], '/');
    var rest := Join(Drop(parts, rootLength), '/');
    assert ParseParts(filePath, parts) == Success(ParsedFilePath(name, root, rest));
  }

  /** `lastIndexOf` finds the last marker. */
  lemma LastMarkerIsLastIndex(parts: seq<string>, k: int)
    requires IsLastMarker(parts, k)
    ensures LastIndexOf(parts, NodeModules) == k
  {
  }

  /** An unscoped package: the name is the one segment after the last
      `node_modules`, the root runs through it, and the rest is the relative path. */
  lemma ParseUnscoped(filePath: string, k: int)
    requires IsLastMarker(Segments(filePath), k)
    requires k + 1 < |Segments(filePath)| && !IsScopeName(Segments(filePath)[k + 1])
    ensures var parts := Segments(filePath);
      ParseFilePath(filePath) == Success(ParsedFilePath(
        parts[k + 1],
        Join(parts[..k + 2] + [PackageJson], '/'),
        Join(parts[k + 2..], '/')))
  {
    PartsAtLastMarker(filePath, Segments(filePath), k);
  }

  /** A scoped package: the name is the two segments after the last
      `node_modules` joined by `/`, and the root runs up to and including the
      package name (or to the end of a path that stops at the scope). */
  lemma ParseScoped(filePath: string, k: int)
    requires IsLastMarker(Segments(filePath), k)
    requires k + 1 < |Segments(filePath)| && IsScopeName(Segments(filePath)[k + 1])
    ensures var parts := Segments(filePath);
      var end := Min(k + 3, |parts|);
      ParseFilePath(filePath) == Success(ParsedFilePath(
        Join(parts[k + 1..end], '/'),
        Join(parts[..end] + [PackageJson], '/'),
        Join(parts[end..], '/')))
    ensures var parts := Segments(filePath);
      k + 2 < |parts| ==> ParseFilePath(filePath).value.packageName == parts[k + 1] + "/" + parts[k + 2]
  {
    var parts := Segments(filePath);
    PartsAtLastMarker(filePath, parts, k);
    if k + 2 < |parts| {
      var pair := parts[k + 1..k + 3];
      assert pair == [parts[k + 1], parts[k + 2]];
      assert pair[1..] == [parts[k + 2]];
      assert Join(pair, '/') == parts[k + 1] + "/" + parts[k + 2];
    }
  }

  /** Nested dependencies: with a further `node_modules` later in the path,
      the package found is the one after the inner marker. */
  lemma ParseNestedUsesInnermost(filePath: string, outer: seq<string>, inner: seq<string>)
    requires Segments(filePath) == outer + [NodeModules] + inner
    requires NodeModules !in inner
    requires |inner| >= 1 && !IsScopeName(inner[0])
    ensures ParseFilePath(filePath).Success?
    ensures ParseFilePath(filePath).value.packageName == inner[0]
    ensures ParseFilePath(filePath).value.relativeFilePath == Join(inner[1..], '/')
  {
    var parts := Segments(filePath);
    var k := |outer|;
    assert parts[k] == NodeModules;
    forall j | k < j < |parts| ensures parts[j] != NodeModules {
      assert parts[j] == inner[j - k - 1];
    }
    PartsAtLastMarker(filePath, parts, k);
    assert parts[k + 1] == inner[0];
    assert parts[k + 2..] == inner[1..];
  }

  /*** Shape of the results ***/

  /** The segments of a normalised path contain neither kind of slash. */
  lemma SegmentsAreSlashFree(filePath: string)
    ensures NoneContains(Segments(filePath), '/')
    ensures NoneContains(Segments(filePath), '\\')
  {
    var n := Normalize(filePath);
    assert '\\' !in n by {
      forall i | 0 <= i < |n| ensures n[i] != '\\' {
      }
    }
    SplitAvoids(n, '/', '\\');
  }

  /** Joining the segments with `/` gives back the path with every backslash
      replaced by `/`: no character is lost or added. */
  lemma SegmentsRejoin(filePath: string)
    ensures Join(Segments(filePath), '/') == Replace(filePath, '\\', '/')
  {
    JoinSplit(Normalize(filePath), '/');
  }

  /** Segments free of `c` give outputs free of `c`. */
  lemma PartsOutputsAvoid(filePath: string, parts: seq<string>, c: char)
    requires |parts| >= 1 && c != '/' && c !in PackageJson && NoneContains(parts, c)
    requires ParseParts(filePath, parts).Success?
    ensures var r := ParseParts(filePath, parts).value;
      c !in r.packageName && c !in r.packageJsonPath && c !in r.relativeFilePath
  {
    var k := LastIndexOf(parts, NodeModules);
    var end := Min(RootLength(k, parts[k + 1]), |parts|);
    PartsAtLastMarker(filePath, parts, k);
    var name := parts[k + 1..end];
    var root := parts[..end] + [PackageJson];
    var rest := parts[end..];
    assert NoneContains(name, c) by {
      forall i | 0 <= i < |name| ensures c !in name[i] {
        assert name[i] == parts[k + 1 + i];
      }
    }
    assert NoneContains(root, c) by {
      forall i | 0 <= i < |root| ensures c !in root[i] {
        if i < end {
          assert root[i] == parts[i];
        } else {
          assert root[i] == PackageJson;
        }
      }
    }
    assert NoneContains(rest, c) by {
      forall i | 0 <= i < |rest| ensures c !in rest[i] {
        assert rest[i] == parts[end + i];
      }
    }
    JoinAvoids(name, '/', c);
    JoinAvoids(root, '/', c);
    JoinAvoids(rest, '/', c);
  }

  /** The file name `package.json` has neither separator in it. */
  lemma PackageJsonHasNoSeparator()
    ensures '\\' !in PackageJson && '/' !in PackageJson
  {
    assert PackageJson == ['p', 'a', 'c', 'k', 'a', 'g', 'e', '.', 'j', 's', 'o', 'n'];
  }

  /** On success no output of `parseFilePath` contains a backslash. */
  lemma ParseOutputsAreNormalised(filePath: string)
    requires ParseFilePath(filePath).Success?
    ensures var r := ParseFilePath(filePath).value;
      '\\' !in r.packageName && '\\' !in r.packageJsonPath && '\\' !in r.relativeFilePath
  {
    SegmentsAreSlashFree(filePath);
    PackageJsonHasNoSeparator();
    PartsOutputsAvoid(filePath, Segments(filePath), '\\');
  }

  /** `d + s` ends with `s`, and removing `|s|` characters gives `d` back. */
  lemma StripSuffix(d: string, s: string)
    ensures EndsWith(d + s, s)
    ensures (d + s)[..|d + s| - |s|] == d
  {
    assert (d + s)[|d|..] == s;
  }

  /** The directory part of a `package.json` path: everything before `/package.json`. */
  function PackageDirectory(packageJsonPath: string): string
    requires EndsWith(packageJsonPath, "/" + PackageJson)
  {
    packageJsonPath[..|packageJsonPath| - |"/" + PackageJson|]
  }

  /** The join of root segments and `package.json`, against the join of the
      root segments and the remaining ones. */
  lemma JoinRootAndRest(root: seq<string>, rest: seq<string>)
    requires |root| >= 1
    ensures EndsWith(Join(root + [PackageJson], '/'), "/" + PackageJson)
    ensures PackageDirectory(Join(root + [PackageJson], '/')) == Join(root, '/')
    ensures |rest| >= 1 ==> Join(root + rest, '/') == Join(root, '/') + "/" + Join(rest, '/')
    ensures |rest| == 0 ==> Join(root + rest, '/') == Join(root, '/') && Join(rest, '/') == ""
  {
    var dir := Join(root, '/');
    JoinAppend(root, [PackageJson], '/');
    assert Join(root + [PackageJson], '/') == dir + ("/" + PackageJson);
    StripSuffix(dir, "/" + PackageJson);
    if |rest| >= 1 {
      JoinAppend(root, rest, '/');
    } else {
      assert root + rest == root;
    }
  }

  /** On success the `package.json` path is the package directory followed
      by `/package.json`, and that directory followed by the relative path
      gives back the joined segments. When the root covers every segment,
      the relative path is empty and the directory is the whole path. */
  lemma PartsReconstruct(filePath: string, parts: seq<string>)
    requires |parts| >= 1 && ParseParts(filePath, parts).Success?
    ensures var r := ParseParts(filePath, parts).value;
      && EndsWith(r.packageJsonPath, "/" + PackageJson)
      && var dir := PackageDirectory(r.packageJsonPath);
         (Join(parts, '/') == dir + "/" + r.relativeFilePath
          || (r.relativeFilePath == "" && Join(parts, '/') == dir))
  {
    var k := LastIndexOf(parts, NodeModules);
    var end := Min(RootLength(k, parts[k + 1]), |parts|);
    PartsAtLastMarker(filePath, parts, k);
    var root := parts[..end];
    var rest := parts[end..];
    assert root + rest == parts;
    JoinRootAndRest(root, rest);
  }

  /** The package directory followed by the relative path gives back the
      normalised input, keeping the leading empty segment of an absolute
      path, and the `package.json` path ends in `/package.json`. */
  lemma ParseReconstructsPath(filePath: string)
    requires ParseFilePath(filePath).Success?
    ensures var r := ParseFilePath(filePath).value;
      && EndsWith(r.packageJsonPath, "/" + PackageJson)
      && var dir := PackageDirectory(r.packageJsonPath);
         (Normalize(filePath) == dir + "/" + r.relativeFilePath
          || (r.relativeFilePath == "" && Normalize(filePath) == dir))
  {
    var parts := Segments(filePath);
    assert ParseFilePath(filePath) == ParseParts(filePath, parts);
    PartsReconstruct(filePath, parts);
    JoinSplit(Normalize(filePath), '/');
  }

  /** `p` and `q` are the same path up to writing `/` or `\` at any separator. */
  predicate SameUpToSlashes(p: string, q: string)
  {
    && |p| == |q|
    && forall i :: 0 <= i < |p| ==> p[i] == q[i] || (p[i] in "/\\" && q[i] in "/\\")
  }

  /** Backslash and forward-slash spellings of one path give the same
      package, `package.json` path and relative path, and fail alike. */
  lemma ParseIgnoresSlashSpelling(p: string, q: string)
    requires SameUpToSlashes(p, q)
    ensures ParseFilePath(p).Success? <==> ParseFilePath(q).Success?
    ensures ParseFilePath(p).Success? ==> ParseFilePath(p).value == ParseFilePath(q).value
    ensures ParseFilePath(p).Failure? ==> ParseFilePath(p).error.NotInNodeModules? == ParseFilePath(q).error.NotInNodeModules?
  {
    assert Normalize(p) == Normalize(q);
    var parts := Segments(p);
    assert ParseFilePath(p) == ParseParts(p, parts);
    assert ParseFilePath(q) == ParseParts(q, parts);
    if NodeModules in parts && parts[|parts| - 1] != NodeModules {
      var k := LastIndexOf(parts, NodeModules);
      PartsAtLastMarker(p, parts, k);
      PartsAtLastMarker(q, parts, k);
    }
  }

  /*** Agreement between the three functions ***/

  /** `getPackageJsonPath` is the `packageJsonPath` field of `parseFilePath`,
      throwing exactly when it throws and with the same error. */
  lemma GetPackageJsonPathAgrees(filePath: string)
    ensures GetPackageJsonPath(filePath).Success? <==> ParseFilePath(filePath).Success?
    ensures GetPackageJsonPath(filePath).Success? ==>
      GetPackageJsonPath(filePath).value == ParseFilePath(filePath).value.packageJsonPath
    ensures GetPackageJsonPath(filePath).Failure? ==>
      GetPackageJsonPath(filePath).error == ParseFilePath(filePath).error
  {
    var parts := Segments(filePath);
    assert GetPackageJsonPath(filePath) == PackageJsonPathOfParts(filePath, parts);
    assert ParseFilePath(filePath) == ParseParts(filePath, parts);
  }

  /** The segments of the `package.json` path built from slash-free `parts`. */
  lemma RootPrefixOfParts(filePath: string, parts: seq<string>, k: int)
    requires IsLastMarker(parts, k) && k + 1 < |parts| && NoneContains(parts, '/')
    ensures var end := Min(RootLength(k, parts[k + 1]), |parts|);
      && ParseParts(filePath, parts).Success?
      && Split(ParseParts(filePath, parts).value.packageJsonPath, '/') == parts[..end] + [PackageJson]
  {
    PartsAtLastMarker(filePath, parts, k);
    var end := Min(RootLength(k, parts[k + 1]), |parts|);
    var root := parts[..end] + [PackageJson];
    assert NoneContains(root, '/') by {
      PackageJsonHasNoSeparator();
      forall i | 0 <= i < |root| ensures '/' !in root[i] {
        if i < end {
          assert root[i] == parts[i];
        }
      }
    }
    SplitJoin(root, '/');
  }

  /** The `package.json` path splits into a prefix of the normalised input's
      segments, running up to and including the package name after the last
      `node_modules`, followed by `package.json`. */
  lemma PackageJsonPathIsRootPrefix(filePath: string, k: int)
    requires IsLastMarker(Segments(filePath), k)
    requires k + 1 < |Segments(filePath)|
    ensures GetPackageJsonPath(filePath).Success?
    ensures var parts := Segments(filePath);
      var segs := Split(GetPackageJsonPath(filePath).value, '/');
      && segs[|segs| - 1] == PackageJson
      && segs[..|segs| - 1] <= parts
      && |segs| - 1 == Min(RootLength(k, parts[k + 1]), |parts|)
  {
    var parts := Segments(filePath);
    GetPackageJsonPathAgrees(filePath);
    SegmentsAreSlashFree(filePath);
    assert ParseFilePath(filePath) == ParseParts(filePath, parts);
    RootPrefixOfParts(filePath, parts, k);
    var end := Min(RootLength(k, parts[k + 1]), |parts|);
    var segs := parts[..end] + [PackageJson];
    assert segs[..end] == parts[..end];
  }

  /** Without backslashes in the path and with `/` as the platform separator,
      `extractPackageName` is the `packageName` field of `parseFilePath`. */
  lemma ExtractAgreesWithParse(filePath: string)
    requires '\\' !in filePath
    ensures ExtractPackageName(filePath, '/').Success? <==> ParseFilePath(filePath).Success?
    ensures ExtractPackageName(filePath, '/').Success? ==>
      ExtractPackageName(filePath, '/').value == ParseFilePath(filePath).value.packageName
    ensures ExtractPackageName(filePath, '/').Failure? ==>
      ExtractPackageName(filePath, '/').error == ParseFilePath(filePath).error
  {
    assert Normalize(filePath) == filePath;
    var parts := Split(filePath, '/');
    assert ExtractPackageName(filePath, '/') == NameOfParts(filePath, parts);
    assert ParseFilePath(filePath) == ParseParts(filePath, parts);
    NameOfPartsAgrees(filePath, parts);
  }

  /** On the same segments, `extractPackageName` and `parseFilePath` find
      the same name and fail in the same way. */
  lemma NameOfPartsAgrees(filePath: string, parts: seq<string>)
    requires |parts| >= 1
    ensures NameOfParts(filePath, parts).Success? <==> ParseParts(filePath, parts).Success?
    ensures NameOfParts(filePath, parts).Success? ==>
      NameOfParts(filePath, parts).value == ParseParts(filePath, parts).value.packageName
    ensures NameOfParts(filePath, parts).Failure? ==>
      NameOfParts(filePath, parts).error == ParseParts(filePath, parts).error
  {
    if NodeModules in parts && parts[|parts| - 1] != NodeModules {
      var k := LastIndexOf(parts, NodeModules);
      PartsAtLastMarker(filePath, parts, k);
      if IsScopeName(parts[k + 1]) {
        assert Take(parts[k + 1..], 2) == parts[k + 1..Min(k + 3, |parts|)];
      }
    }
  }

  /** The name `extractPackageName` returns for a scoped package joins its
      two segments with `/`, whatever the platform separator is; an unscoped
      name is the single segment after the last `node_modules`. */
  lemma ExtractAtLastMarker(filePath: string, sep: char, k: int)
    requires IsLastMarker(Split(filePath, sep), k)
    requires k + 1 < |Split(filePath, sep)|
    ensures var parts := Split(filePath, sep);
      ExtractPackageName(filePath, sep) == Success(
        if !IsScopeName(parts[k + 1]) then parts[k + 1]
        else if k + 2 < |parts| then parts[k + 1] + "/" + parts[k + 2]
        else parts[k + 1])
  {
    var parts := Split(filePath, sep);
    assert ExtractPackageName(filePath, sep) == NameOfParts(filePath, parts);
    assert LastIndexOf(parts, NodeModules) == k;
    var packageParts := parts[k + 1..];
    if IsScopeName(parts[k + 1]) && k + 2 < |parts| {
      var pair := [parts[k + 1], parts[k + 2]];
      assert Take(packageParts, 2) == pair;
      assert pair[1..] == [parts[k + 2]];
      assert Join(pair, '/') == parts[k + 1] + "/" + parts[k + 2];
    } else if IsScopeName(parts[k + 1]) {
      assert Take(packageParts, 2) == [parts[k + 1]];
    }
  }

  /** `extractPackageName` does not normalise backslashes: with `/` as the
      separator, a path without any `/` is a single segment, so it is
      rejected with the not-in-`node_modules` error unless it is
      `node_modules` itself (which fails with the missing-segment error). */
  lemma ExtractDoesNotNormalise(filePath: string)
    requires '/' !in filePath && filePath != NodeModules
    ensures ExtractPackageName(filePath, '/') == Failure(NotInNodeModules(filePath))
  {
    SplitPrefix(filePath, "", '/');
    assert filePath + "" == filePath;
    assert Split(filePath, '/') == [filePath];
  }

  /** The segments of `node_modules\\<name>` for a slash-free `name`. */
  lemma BackslashPathSegments(name: string)
    requires '/' !in name && '\\' !in name
    ensures Segments(NodeModules + "\\" + name) == [NodeModules, name]
  {
    var filePath := NodeModules + "\\" + name;
    assert '/' !in NodeModules && '\\' !in NodeModules by {
      forall i | 0 <= i < |NodeModules| ensures NodeModules[i] != '/' && NodeModules[i] != '\\' {
        assert NodeModules[i] in "nodemuls_";
      }
    }
    var slashed := NodeModules + "/" + name;
    assert Normalize(filePath) == slashed;
    var parts := [NodeModules, name];
    assert parts[1..] == [name];
    assert Join(parts, '/') == slashed;
    SplitJoin(parts, '/');
  }

  /** A backslash-delimited `node_modules\\<name>` is a package for
      `parseFilePath` and an error for `extractPackageName` with `/`. */
  lemma BackslashPathParsedNotExtracted(name: string)
    requires name != "" && '/' !in name && '\\' !in name && !IsScopeName(name) && name != NodeModules
    ensures ParseFilePath(NodeModules + "\\" + name) ==
      Success(ParsedFilePath(name, NodeModules + "/" + name + "/" + PackageJson, ""))
    ensures ExtractPackageName(NodeModules + "\\" + name, '/') == Failure(NotInNodeModules(NodeModules + "\\" + name))
  {
    var filePath := NodeModules + "\\" + name;
    assert '/' !in NodeModules by {
      forall i | 0 <= i < |NodeModules| ensures NodeModules[i] != '/' {
        assert NodeModules[i] in "nodemuls_";
      }
    }
    assert filePath != NodeModules by {
      assert |filePath| > |NodeModules|;
    }
    ExtractDoesNotNormalise(filePath);
    BackslashPathSegments(name);
    var parts := [NodeModules, name];
    assert IsLastMarker(parts, 0);
    assert RootLength(0, name) == 2;
    PartsAtLastMarker(filePath, parts, 0);
    var root := [NodeModules, name, PackageJson];
    assert parts[..2] + [PackageJson] == root;
    assert parts[2..] == [];
    JoinThree(NodeModules, name, PackageJson);
  }

  lemma JoinThree(a: string, b: string, c: string)
    ensures Join([a, b, c], '/') == a + "/" + b + "/" + c
  {
    assert [a, b, c][1..] == [b, c];
    assert [b, c][1..] == [c];
    assert Join([b, c], '/') == b + "/" + c;
    assert a + "/" + (b + "/" + c) == a + "/" + b + "/" + c;
  }
}

=== FILE: restricted_imports.dfy ===
/** The `no-restricted-imports` lint rule. The rule is configured with a
    restriction table, a list of (module, restricted export names) entries,
    and visits the syntax nodes of one file in traversal order. It has three
    handlers, for `ImportDeclaration`, `MemberExpression` and
    `VariableDeclarator` nodes, and they share one map from a local
    identifier to the module it stands for (the `namespaceIdentifiers` map).
    Here the visit is a fold over the sequence of those nodes: the map is
    threaded through it and every `context.report` call becomes a `Report`
    appended to a list. A new file starts with an empty map. */
module RestrictedImports {
  import opened Wrappers

  /*** Configuration and output ***/

  /** One entry of the `restrictedImports` option. */
  datatype Restriction = Restriction(moduleName: string, imports: seq<string>)

  datatype MessageId = RestrictedImport | RestrictedNamespaceAccess | RestrictedDestructuring

  /** The `messageId` and `data` of one `context.report` call. */
  datatype Report = Report(messageId: MessageId, importName: string, moduleName: string)

  /*** The syntax the rule inspects ***/

  /** The value of a `Literal` node. A string keeps its text; any other
      literal (number, boolean, null, regular expression) is represented by
      its truthiness and the text `toString()` gives for it. */
  datatype LiteralValue = StringValue(text: string) | OtherValue(truthy: bool, text: string)

  /** Expressions: the shapes the rule looks at, and one case for all others. */
  datatype Expr =
    | Identifier(name: string)
    | Literal(value: LiteralValue)
    | Call(callee: Expr, arguments: seq<Expr>)
    | Member(obj: Expr, property: Expr)
    | OtherExpression

  /** The `imported` part of `import { a as b }`: an identifier, or a string
      literal as in `import { "a-b" as c }`. */
  datatype ModuleExportName = ExportIdentifier(name: string) | ExportString(value: string)

  datatype ImportSpecifier =
    | ImportNamed(imported: ModuleExportName, local: string)
    | ImportDefault(local: string)
    | ImportNamespace(local: string)

  /** An element of an object pattern: a property with its key (the name
      before any renaming), or a rest element. */
  datatype PatternProperty = Property(key: Expr) | RestElement

  datatype Pattern =
    | IdentifierPattern(name: string)
    | ObjectPattern(properties: seq<PatternProperty>)
    | OtherPattern

  /** The three node kinds the rule has handlers for. */
  datatype Node =
    | ImportDeclaration(source: string, specifiers: seq<ImportSpecifier>)
    | MemberExpression(obj: Expr, property: Expr)
    | VariableDeclarator(id: Pattern, init: Option<Expr>)

  /** The rule's state for one file: the namespace map and the reports so far. */
  datatype State = State(namespaces: map<string, string>, reports: seq<Report>)

  /*** Table lookups ***/

  /** Some entry of the table is for `moduleName`. */
  predicate HasEntry(table: seq<Restriction>, moduleName: string)
  {
    exists i :: 0 <= i < |table| && table[i].moduleName == moduleName
  }

  /** Some entry of the table, for whatever module, lists `name`. */
  predicate ListedAnywhere(table: seq<Restriction>, name: string)
  {
    exists i :: 0 <= i < |table| && name in table[i].imports
  }

  /** Entry `i` is the first one for `moduleName`. */
  predicate IsFirstEntry(table: seq<Restriction>, i: int, moduleName: string)
  {
    && 0 <= i < |table|
    && table[i].moduleName == moduleName
    && forall j :: 0 <= j < i ==> table[j].moduleName != moduleName
  }

  /** `restrictedImports.find(r => r.module === moduleName)`: the first entry
      for the module, or undefined. */
  function FindRestriction(table: seq<Restriction>, moduleName: string): (r: Option<Restriction>)
    ensures r.None? <==> !HasEntry(table, moduleName)
    ensures r.Some? ==> exists i :: IsFirstEntry(table, i, moduleName) && table[i] == r.value
    decreases |table|
  {
    if |table| == 0 then None
    else if table[0].moduleName == moduleName then
      assert IsFirstEntry(table, 0, moduleName);
      Some(table[0])
    else
      var r := FindRestriction(table[1..], moduleName);
      assert HasEntry(table, moduleName) ==> HasEntry(table[1..], moduleName) by {
        if HasEntry(table, moduleName) {
          var i :| 0 <= i < |table| && table[i].moduleName == moduleName;
          assert table[1..][i - 1].moduleName == moduleName;
        }
      }
      assert r.Some? ==> exists i :: IsFirstEntry(table, i, moduleName) && table[i] == r.value by {
        if r.Some? {
          var i :| IsFirstEntry(table[1..], i, moduleName) && table[1..][i] == r.value;
          assert IsFirstEntry(table, i + 1, moduleName);
        }
      }
      r
  }

  /** `restrictedImports.find(r => r.imports.find(y => y == name))` with a
      non-empty `name`: the inner `find` returns `name` itself, which is
      truthy, so the test is whether any entry lists the name. */
  function AnyEntryLists(table: seq<Restriction>, name: string): (b: bool)
    ensures b <==> ListedAnywhere(table, name)
    decreases |table|
  {
    if |table| == 0 then false
    else if name in table[0].imports then
      true
    else
      var b := AnyEntryLists(table[1..], name);
      assert ListedAnywhere(table, name) ==> ListedAnywhere(table[1..], name) by {
        if ListedAnywhere(table, name) {
          var i :| 0 <= i < |table| && name in table[i].imports;
          assert name in table[1..][i - 1].imports;
        }
      }
      assert ListedAnywhere(table[1..], name) ==> ListedAnywhere(table, name) by {
        if ListedAnywhere(table[1..], name) {
          var i :| 0 <= i < |table[1..]| && name in table[1..][i].imports;
          assert name in table[i + 1].imports;
        }
      }
      b
  }

  /** A report the table accounts for: its module has an entry and its
      name is listed by some entry. */
  predicate Justified(table: seq<Restriction>, report: Report)
  {
    HasEntry(table, report.moduleName) && ListedAnywhere(table, report.importName)
  }

  /** The reports from index `from` on are all justified. */
  predicate JustifiedFrom(table: seq<Restriction>, reports: seq<Report>, from: nat)
  {
    forall i :: from <= i < |reports| ==> Justified(table, reports[i])
  }

  /*** Syntax helpers ***/

  /** JavaScript truthiness of a literal value. */
  function Truthy(v: LiteralValue): (b: bool)
    ensures v.StringValue? ==> (b <==> v.text != "")
    ensures v.OtherValue? ==> (b <==> v.truthy)
  {
    match v
    case StringValue(s) => s != ""
    case OtherValue(t, _) => t
  }

  /** `value.toString()`: the string itself for a string literal, and for
      any other literal the text its `toString()` yields (`"42"`, `"true"`,
      `"null"`, the pattern of a regular expression), which the value carries. */
  function LiteralText(v: LiteralValue): string
  {
    v.text
  }

  /** `imported.type === 'Identifier' ? imported.name : imported.value`. */
  function ExportNameText(n: ModuleExportName): (text: string)
    ensures n.ExportIdentifier? ==> text == n.name
    ensures n.ExportString? ==> text == n.value
  {
    match n
    case ExportIdentifier(name) => name
    case ExportString(value) => value
  }

  /** The module loaded by `require(<literal>)`: a call whose callee is the
      identifier `require`, with exactly one argument, a literal with a
      truthy value; the module is that value's text. */
  function RequiredModule(e: Expr): (m: Option<string>)
    ensures m.Some? <==>
      && e.Call? && e.callee == Identifier("require") && |e.arguments| == 1
      && e.arguments[0].Literal? && Truthy(e.arguments[0].value)
    ensures m.Some? ==> m.value == LiteralText(e.arguments[0].value)
  {
    if && e.Call?
       && e.callee == Identifier("require")
       && |e.arguments| == 1
       && e.arguments[0].Literal?
       && Truthy(e.arguments[0].value)
    then Some(LiteralText(e.arguments[0].value))
    else None
  }

  /** The local names a list of specifiers binds to the whole module. */
  function WholeModuleLocals(specifiers: seq<ImportSpecifier>): set<string>
    decreases |specifiers|
  {
    if |specifiers| == 0 then {}
    else
      (if specifiers[0].ImportNamed? then {} else {specifiers[0].local})
      + WholeModuleLocals(specifiers[1..])
  }

  /** The imported names of the named specifiers the entry lists, in order. */
  function RestrictedNamedImports(restriction: Restriction, specifiers: seq<ImportSpecifier>): seq<string>
    decreases |specifiers|
  {
    if |specifiers| == 0 then []
    else
      var s := specifiers[0];
      (if s.ImportNamed? && ExportNameText(s.imported) in restriction.imports
       then [ExportNameText(s.imported)] else [])
      + RestrictedNamedImports(restriction, specifiers[1..])
  }

  /** One report with the given message for each name, in order. */
  function ReportsFor(messageId: MessageId, names: seq<string>, moduleName: string): (rs: seq<Report>)
    ensures |rs| == |names|
    ensures forall i :: 0 <= i < |names| ==> rs[i] == Report(messageId, names[i], moduleName)
    decreases |names|
  {
    if |names| == 0 then [] else [Report(messageId, names[0], moduleName)] + ReportsFor(messageId, names[1..], moduleName)
  }

  /*** ImportDeclaration ***/

  /** The body of the `forEach` over the specifiers of an import from a
      module with an entry: a named specifier is reported when its imported
      (pre-alias) name is listed; a default or namespace specifier binds its
      local name to the module. */
  function CheckSpecifier(restriction: Restriction, moduleName: string, st: State, specifier: ImportSpecifier): (r: State)
    ensures specifier.ImportNamed? ==> r.namespaces == st.namespaces
    ensures specifier.ImportNamed? ==>
      (r.reports != st.reports <==> ExportNameText(specifier.imported) in restriction.imports)
    ensures r.reports != st.reports ==>
      specifier.ImportNamed? && r.reports == st.reports + [Report(RestrictedImport, ExportNameText(specifier.imported), moduleName)]
    ensures !specifier.ImportNamed? ==>
      r.reports == st.reports && r.namespaces == st.namespaces[specifier.local := moduleName]
  {
    match specifier
    case ImportNamed(imported, _) =>
      var importedName := ExportNameText(imported);
      if importedName in restriction.imports then
        st.(reports := st.reports + [Report(RestrictedImport, importedName, moduleName)])
      else st
    case ImportDefault(local) => st.(namespaces := st.namespaces[local := moduleName])
    case ImportNamespace(local) => st.(namespaces := st.namespaces[local := moduleName])
  }

  /** `node.specifiers.forEach(...)`: the specifiers in order. The reports
      added are exactly those for the listed named specifiers, in specifier
      order; the default and namespace locals are bound to the module and
      every other binding is kept. */
  function CheckSpecifiers(restriction: Restriction, moduleName: string, st: State, specifiers: seq<ImportSpecifier>): (r: State)
    ensures r.reports == st.reports + ReportsFor(RestrictedImport, RestrictedNamedImports(restriction, specifiers), moduleName)
    ensures forall x :: x in r.namespaces <==> x in st.namespaces || x in WholeModuleLocals(specifiers)
    ensures forall x :: x in WholeModuleLocals(specifiers) ==> r.namespaces[x] == moduleName
    ensures forall x :: x in st.namespaces && x !in WholeModuleLocals(specifiers) ==> r.namespaces[x] == st.namespaces[x]
    decreases |specifiers|
  {
    if |specifiers| == 0 then st
    else
      var next := CheckSpecifier(restriction, moduleName, st, specifiers[0]);
      var r := CheckSpecifiers(restriction, moduleName, next, specifiers[1..]);
      ReportsForAppend(RestrictedImport,
        if specifiers[0].ImportNamed? && ExportNameText(specifiers[0].imported) in restriction.imports
        then [ExportNameText(specifiers[0].imported)] else [],
        RestrictedNamedImports(restriction, specifiers[1..]), moduleName);
      r
  }

  /** The `ImportDeclaration` handler: nothing happens for a module without
      an entry; otherwise the specifiers are checked against the module's
      first entry. */
  function VisitImportDeclaration(table: seq<Restriction>, st: State, source: string, specifiers: seq<ImportSpecifier>): (r: State)
    ensures st.reports <= r.reports
    ensures JustifiedFrom(table, r.reports, |st.reports|)
    ensures forall x :: x !in WholeModuleLocals(specifiers) ==> Get(r.namespaces, x) == Get(st.namespaces, x)
  {
    match FindRestriction(table, source)
    case None => st
    case Some(restriction) =>
      var r := CheckSpecifiers(restriction, source, st, specifiers);
      assert JustifiedFrom(table, r.reports, |st.reports|) by {
        var names := RestrictedNamedImports(restriction, specifiers);
        RestrictedNamedImportsListed(restriction, specifiers);
        var i0 :| IsFirstEntry(table, i0, source) && table[i0] == restriction;
        forall i | |st.reports| <= i < |r.reports| ensures Justified(table, r.reports[i]) {
          var k := i - |st.reports|;
          assert r.reports[i] == Report(RestrictedImport, names[k], source);
          assert names[k] in table[i0].imports;
        }
      }
      r
  }

  /*** MemberExpression ***/

  /** The `MemberExpression` handler: `X.p` with an identifier object and an
      identifier property is reported when `X` is bound to a non-empty module
      name, the module has an entry, and the entry lists `p`. The namespace
      map is never changed. */
  function VisitMemberExpression(table: seq<Restriction>, st: State, obj: Expr, property: Expr): (r: State)
    ensures r.namespaces == st.namespaces
    ensures st.reports <= r.reports && |r.reports| <= |st.reports| + 1
    ensures JustifiedFrom(table, r.reports, |st.reports|)
    ensures |r.reports| == |st.reports| + 1 ==>
      && obj.Identifier? && property.Identifier?
      && obj.name in st.namespaces
      && r.reports[|st.reports|] == Report(RestrictedNamespaceAccess, property.name, st.namespaces[obj.name])
  {
    if obj.Identifier? && property.Identifier? then
      var namespaceName := obj.name;
      var propertyName := property.name;
      var moduleName := Get(st.namespaces, namespaceName);
      if moduleName.None? || moduleName.value == "" then st
      else
        match FindRestriction(table, moduleName.value)
        case None => st
        case Some(restriction) =>
          if propertyName in restriction.imports then
            var i0 :| IsFirstEntry(table, i0, moduleName.value) && table[i0] == restriction;
            assert Justified(table, Report(RestrictedNamespaceAccess, propertyName, moduleName.value)) by {
              assert propertyName in table[i0].imports;
            }
            st.(reports := st.reports + [Report(RestrictedNamespaceAccess, propertyName, moduleName.value)])
          else st
    else st
  }

  /*** VariableDeclarator ***/

  /** The destructured properties reported for a module's entry: each
      `Property` whose key is an identifier listed by the entry, in pattern
      order. Other keys and rest elements give nothing. */
  function PropertyReports(restriction: Restriction, moduleName: string, properties: seq<PatternProperty>): (rs: seq<Report>)
    ensures |rs| <= |properties|
    ensures forall i :: 0 <= i < |rs| ==>
      rs[i].messageId == RestrictedDestructuring && rs[i].moduleName == moduleName
      && rs[i].importName in restriction.imports
    decreases |properties|
  {
    if |properties| == 0 then []
    else
      var p := properties[0];
      (if p.Property? && p.key.Identifier? && p.key.name in restriction.imports
       then [Report(RestrictedDestructuring, p.key.name, moduleName)] else [])
      + PropertyReports(restriction, moduleName, properties[1..])
  }

  /** The third block of the `VariableDeclarator` handler: an object pattern
      initialised from an identifier bound in the namespace map, or from
      `require(<literal>)`, reports its listed properties. */
  function CheckDestructuring(table: seq<Restriction>, st: State, id: Pattern, init: Option<Expr>): (r: State)
    ensures r.namespaces == st.namespaces
    ensures st.reports <= r.reports
    ensures JustifiedFrom(table, r.reports, |st.reports|)
  {
    if id.ObjectPattern? && init.Some? then
      var moduleName :=
        if init.value.Identifier? then Get(st.namespaces, init.value.name)
        else RequiredModule(init.value);
      if moduleName.None? || moduleName.value == "" then st
      else
        match FindRestriction(table, moduleName.value)
        case None => st
        case Some(restriction) =>
          var added := PropertyReports(restriction, moduleName.value, id.properties);
          var r := st.(reports := st.reports + added);
          assert JustifiedFrom(table, r.reports, |st.reports|) by {
            var i0 :| IsFirstEntry(table, i0, moduleName.value) && table[i0] == restriction;
            forall i | |st.reports| <= i < |r.reports| ensures Justified(table, r.reports[i]) {
              assert r.reports[i] == added[i - |st.reports|];
              assert r.reports[i].importName in table[i0].imports;
            }
          }
          r
    else st
  }

  /** The `VariableDeclarator` handler, its three blocks in order:
      `const X = require('m')` binds `X` to `m`, whether or not `m` has an
      entry; `require('m').p` returns early when `m` has no entry and
      otherwise reports `p` when ANY entry lists it; an object pattern is
      then checked for destructuring. */
  function VisitVariableDeclarator(table: seq<Restriction>, st: State, id: Pattern, init: Option<Expr>): (r: State)
    ensures st.reports <= r.reports
    ensures JustifiedFrom(table, r.reports, |st.reports|)
    ensures forall x :: !(id.IdentifierPattern? && id.name == x) ==> Get(r.namespaces, x) == Get(st.namespaces, x)
  {
    var st1 :=
      if init.Some? && RequiredModule(init.value).Some? && id.IdentifierPattern? then
        st.(namespaces := st.namespaces[id.name := RequiredModule(init.value).value])
      else st;
    if init.Some? && init.value.Member? && RequiredModule(init.value.obj).Some? then
      var moduleName := RequiredModule(init.value.obj).value;
      if FindRestriction(table, moduleName).None? then st1
      else
        var property := init.value.property;
        var st2 :=
          if property.Identifier? && property.name != "" && AnyEntryLists(table, property.name) then
            st1.(reports := st1.reports + [Report(RestrictedImport, property.name, moduleName)])
          else st1;
        assert JustifiedFrom(table, st2.reports, |st.reports|);
        CheckDestructuring(table, st2, id, init)
    else
      CheckDestructuring(table, st1, id, init)
  }

  /*** The fold over one file ***/

  /** Dispatch on the node kind. */
  function Step(table: seq<Restriction>, st: State, node: Node): (r: State)
    ensures st.reports <= r.reports
    ensures JustifiedFrom(table, r.reports, |st.reports|)
    ensures forall x :: !MayBind(node, x) ==> Get(r.namespaces, x) == Get(st.namespaces, x)
  {
    match node
    case ImportDeclaration(source, specifiers) => VisitImportDeclaration(table, st, source, specifiers)
    case MemberExpression(obj, property) => VisitMemberExpression(table, st, obj, property)
    case VariableDeclarator(id, init) => VisitVariableDeclarator(table, st, id, init)
  }

  /** The nodes visited in order from a given state. */
  function RunFrom(table: seq<Restriction>, st: State, nodes: seq<Node>): (r: State)
    ensures st.reports <= r.reports
    ensures JustifiedFrom(table, r.reports, |st.reports|)
    decreases |nodes|
  {
    if |nodes| == 0 then st
    else
      var next := Step(table, st, nodes[0]);
      var r := RunFrom(table, next, nodes[1..]);
      assert JustifiedFrom(table, r.reports, |st.reports|) by {
        forall i | |st.reports| <= i < |r.reports| ensures Justified(table, r.reports[i]) {
          if i < |next.reports| {
            assert r.reports[i] == next.reports[i];
          }
        }
      }
      r
  }

  /** The node can bind `x`: an import with `x` as a default or namespace
      local, or a declarator of the identifier `x`. */
  predicate MayBind(node: Node, x: string)
  {
    match node
    case ImportDeclaration(_, specifiers) => x in WholeModuleLocals(specifiers)
    case MemberExpression(_, _) => false
    case VariableDeclarator(id, _) => id.IdentifierPattern? && id.name == x
  }

  /** The reports for one file: its nodes visited from an empty map. Each
      names a module that has an entry and an export some entry lists. */
  function Lint(table: seq<Restriction>, nodes: seq<Node>): (reports: seq<Report>)
    ensures forall i :: 0 <= i < |reports| ==> Justified(table, reports[i])
  {
    RunFrom(table, State(map[], []), nodes).reports
  }

  /*** Lemmas ***/

  lemma {:induction false} ReportsForAppend(messageId: MessageId, a: seq<string>, b: seq<string>, moduleName: string)
    ensures ReportsFor(messageId, a + b, moduleName) == ReportsFor(messageId, a, moduleName) + ReportsFor(messageId, b, moduleName)
  {
    var l := ReportsFor(messageId, a + b, moduleName);
    var r := ReportsFor(messageId, a, moduleName) + ReportsFor(messageId, b, moduleName);
    assert |l| == |r|;
    forall i | 0 <= i < |l| ensures l[i] == r[i] {
      if i < |a| {
        assert (a + b)[i] == a[i];
      } else {
        assert (a + b)[i] == b[i - |a|];
      }
    }
  }

  /** Every name `RestrictedNamedImports` yields is listed by the entry. */
  lemma {:induction false} RestrictedNamedImportsListed(restriction: Restriction, specifiers: seq<ImportSpecifier>)
    ensures forall i :: 0 <= i < |RestrictedNamedImports(restriction, specifiers)| ==>
      RestrictedNamedImports(restriction, specifiers)[i] in restriction.imports
    decreases |specifiers|
  {
    if |specifiers| > 0 {
      RestrictedNamedImportsListed(restriction, specifiers[1..]);
    }
  }

  /** An import from a module without an entry changes nothing: no report
      and no binding, whatever its specifiers. */
  lemma UnlistedModuleImportIsInert(table: seq<Restriction>, st: State, source: string, specifiers: seq<ImportSpecifier>)
    requires !HasEntry(table, source)
    ensures Step(table, st, ImportDeclaration(source, specifiers)) == st
  {
  }

  /** A single named import is reported, under its imported name and not
      its local alias, exactly when the module's first entry lists that
      name; it never binds anything. */
  lemma NamedImportReportedIff(table: seq<Restriction>, st: State, source: string, imported: ModuleExportName, local: string)
    ensures Step(table, st, ImportDeclaration(source, [ImportNamed(imported, local)])) ==
      if HasEntry(table, source) && ExportNameText(imported) in FindRestriction(table, source).value.imports
      then st.(reports := st.reports + [Report(RestrictedImport, ExportNameText(imported), source)])
      else st
  {
    if HasEntry(table, source) {
      var restriction := FindRestriction(table, source).value;
      var specifiers := [ImportNamed(imported, local)];
      assert specifiers[1..] == [];
      var r := CheckSpecifiers(restriction, source, st, specifiers);
      assert r == CheckSpecifiers(restriction, source, CheckSpecifier(restriction, source, st, specifiers[0]), []);
    }
  }

  /** The reports of an import from a module with an entry: one per listed
      named specifier, under its imported name, in specifier order. */
  lemma ImportReports(table: seq<Restriction>, st: State, source: string, specifiers: seq<ImportSpecifier>)
    requires HasEntry(table, source)
    ensures Step(table, st, ImportDeclaration(source, specifiers)).reports ==
      st.reports + ReportsFor(RestrictedImport, RestrictedNamedImports(FindRestriction(table, source).value, specifiers), source)
  {
  }

  /** `RestrictedNamedImports` yields exactly the imported names of the
      named specifiers the entry lists. */
  lemma {:induction false} RestrictedNamedImportsIff(restriction: Restriction, specifiers: seq<ImportSpecifier>, name: string)
    ensures name in RestrictedNamedImports(restriction, specifiers) <==>
      name in restriction.imports &&
      exists i :: 0 <= i < |specifiers| && specifiers[i].ImportNamed? && ExportNameText(specifiers[i].imported) == name
    decreases |specifiers|
  {
    if |specifiers| > 0 {
      RestrictedNamedImportsIff(restriction, specifiers[1..], name);
      if exists i :: 0 <= i < |specifiers| && specifiers[i].ImportNamed? && ExportNameText(specifiers[i].imported) == name {
        var i :| 0 <= i < |specifiers| && specifiers[i].ImportNamed? && ExportNameText(specifiers[i].imported) == name;
        if i > 0 {
          assert specifiers[1..][i - 1] == specifiers[i];
        }
      }
      if exists i :: 0 <= i < |specifiers[1..]| && specifiers[1..][i].ImportNamed? && ExportNameText(specifiers[1..][i].imported) == name {
        var i :| 0 <= i < |specifiers[1..]| && specifiers[1..][i].ImportNamed? && ExportNameText(specifiers[1..][i].imported) == name;
        assert specifiers[i + 1] == specifiers[1..][i];
      }
    }
  }

  /** `X.p` is reported exactly when `X` is bound to a non-empty module
      name whose first entry lists `p`; nothing else changes. */
  lemma NamespaceAccessReportedIff(table: seq<Restriction>, st: State, x: string, p: string)
    ensures Step(table, st, MemberExpression(Identifier(x), Identifier(p))) ==
      if x in st.namespaces && st.namespaces[x] != "" && HasEntry(table, st.namespaces[x])
         && p in FindRestriction(table, st.namespaces[x]).value.imports
      then st.(reports := st.reports + [Report(RestrictedNamespaceAccess, p, st.namespaces[x])])
      else st
  {
  }

  /** `const X = require(<literal>)` binds `X` to the module and reports
      nothing, whether or not the module has an entry. */
  lemma RequireBindsWithoutReport(table: seq<Restriction>, st: State, x: string, call: Expr)
    requires RequiredModule(call).Some?
    ensures Step(table, st, VariableDeclarator(IdentifierPattern(x), Some(call))) ==
      st.(namespaces := st.namespaces[x := RequiredModule(call).value])
  {
  }

  /** `require('m').p`: when `m` has an entry, `p` is reported if ANY entry
      lists it, not only the entry for `m`; the report names `m`. Nothing is
      bound, whatever the declared pattern. */
  lemma RequireMemberChecksEveryList(table: seq<Restriction>, st: State, id: Pattern, call: Expr, p: string)
    requires RequiredModule(call).Some?
    ensures Step(table, st, VariableDeclarator(id, Some(Member(call, Identifier(p))))) ==
      if HasEntry(table, RequiredModule(call).value) && p != "" && ListedAnywhere(table, p)
      then st.(reports := st.reports + [Report(RestrictedImport, p, RequiredModule(call).value)])
      else st
  {
  }

  /** Destructuring an identifier bound to a module with an entry reports
      the listed keys of the pattern; any other identifier changes nothing. */
  lemma DestructuringFromNamespace(table: seq<Restriction>, st: State, properties: seq<PatternProperty>, x: string)
    ensures Step(table, st, VariableDeclarator(ObjectPattern(properties), Some(Identifier(x)))) ==
      if x in st.namespaces && st.namespaces[x] != "" && HasEntry(table, st.namespaces[x])
      then st.(reports := st.reports + PropertyReports(FindRestriction(table, st.namespaces[x]).value, st.namespaces[x], properties))
      else st
  {
  }

  /** Destructuring `require(<literal>)` directly reports the listed keys
      when the module has an entry, and binds nothing. */
  lemma DestructuringFromRequire(table: seq<Restriction>, st: State, properties: seq<PatternProperty>, call: Expr)
    requires RequiredModule(call).Some?
    ensures Step(table, st, VariableDeclarator(ObjectPattern(properties), Some(call))) ==
      var m := RequiredModule(call).value;
      if m != "" && HasEntry(table, m)
      then st.(reports := st.reports + PropertyReports(FindRestriction(table, m).value, m, properties))
      else st
  {
  }

  /** `const X = require(<falsy literal>)`, such as `require('')`, is not a
      `require` the rule recognises: nothing is bound and nothing reported. */
  lemma FalsyRequireIsIgnored(table: seq<Restriction>, st: State, x: string, v: LiteralValue)
    requires !Truthy(v)
    ensures Step(table, st, VariableDeclarator(IdentifierPattern(x), Some(Call(Identifier("require"), [Literal(v)])))) == st
  {
  }

  /** The destructuring reports of a pattern are those of its parts, in order. */
  lemma {:induction false} PropertyReportsAppend(restriction: Restriction, moduleName: string, a: seq<PatternProperty>, b: seq<PatternProperty>)
    ensures PropertyReports(restriction, moduleName, a + b) ==
      PropertyReports(restriction, moduleName, a) + PropertyReports(restriction, moduleName, b)
    decreases |a|
  {
    if |a| > 0 {
      assert (a + b)[0] == a[0];
      assert (a + b)[1..] == a[1..] + b;
      PropertyReportsAppend(restriction, moduleName, a[1..], b);
    } else {
      assert a + b == b;
    }
  }

  /** Every property whose identifier key the entry lists is reported. */
  lemma {:induction false} PropertyReportsComplete(restriction: Restriction, moduleName: string, properties: seq<PatternProperty>, i: int)
    requires 0 <= i < |properties|
    requires properties[i].Property? && properties[i].key.Identifier? && properties[i].key.name in restriction.imports
    ensures Report(RestrictedDestructuring, properties[i].key.name, moduleName) in PropertyReports(restriction, moduleName, properties)
    decreases |properties|
  {
    if i > 0 {
      assert properties[1..][i - 1] == properties[i];
      PropertyReportsComplete(restriction, moduleName, properties[1..], i - 1);
    }
  }

  /** Every report names the identifier key of a `Property` of the pattern:
      rest elements and non-identifier keys give nothing. */
  lemma {:induction false} PropertyReportsSound(restriction: Restriction, moduleName: string, properties: seq<PatternProperty>, rep: Report)
    requires rep in PropertyReports(restriction, moduleName, properties)
    ensures exists i :: 0 <= i < |properties| && properties[i] == Property(Identifier(rep.importName))
    decreases |properties|
  {
    var p := properties[0];
    var head := if p.Property? && p.key.Identifier? && p.key.name in restriction.imports
      then [Report(RestrictedDestructuring, p.key.name, moduleName)] else [];
    var rest := PropertyReports(restriction, moduleName, properties[1..]);
    assert PropertyReports(restriction, moduleName, properties) == head + rest;
    if rep in head {
      assert p == Property(Identifier(rep.importName));
    } else {
      assert rep in rest;
      PropertyReportsSound(restriction, moduleName, properties[1..], rep);
      var i :| 0 <= i < |properties[1..]| && properties[1..][i] == Property(Identifier(rep.importName));
      assert properties[i + 1] == properties[1..][i];
    }
  }

  /** Visiting `a + b` is visiting `a` and then `b`. */
  lemma {:induction false} RunFromAppend(table: seq<Restriction>, st: State, a: seq<Node>, b: seq<Node>)
    ensures RunFrom(table, st, a + b) == RunFrom(table, RunFrom(table, st, a), b)
    decreases |a|
  {
    if |a| > 0 {
      assert (a + b)[0] == a[0];
      assert (a + b)[1..] == a[1..] + b;
      RunFromAppend(table, Step(table, st, a[0]), a[1..], b);
    } else {
      assert a + b == b;
    }
  }

  /** A file of one or two nodes is one or two steps from the empty state. */
  /** Member access on anything but an identifier reports nothing and binds
      nothing: `require('m').p` outside a declarator's initialiser, or
      `f().p`, never reaches a check. */
  lemma NonIdentifierObjectIsInert(table: seq<Restriction>, st: State, obj: Expr, property: Expr)
    requires !obj.Identifier?
    ensures Step(table, st, MemberExpression(obj, property)) == st
  {
  }

  lemma LintOfShortFile(table: seq<Restriction>, a: Node, b: Node)
    ensures Lint(table, [a]) == Step(table, State(map[], []), a).reports
    ensures Lint(table, [a, b]) == Step(table, Step(table, State(map[], []), a), b).reports
  {
    var s0 := State(map[], []);
    var s1 := Step(table, s0, a);
    assert [a][1..] == [];
    assert [a, b][1..] == [b];
    assert RunFrom(table, s0, [a]) == RunFrom(table, s1, []);
    assert RunFrom(table, s0, [a, b]) == RunFrom(table, s1, [b]);
    assert RunFrom(table, s1, [b]) == RunFrom(table, Step(table, s1, b), []);
  }

  /** Reports are only ever added: the reports for a prefix of a file are a
      prefix of the reports for the whole file. */
  lemma LintPrefix(table: seq<Restriction>, a: seq<Node>, b: seq<Node>)
    ensures Lint(table, a) <= Lint(table, a + b)
  {
    RunFromAppend(table, State(map[], []), a, b);
  }

  /** With an empty table the rule reports nothing. */
  lemma EmptyTableReportsNothing(nodes: seq<Node>)
    ensures Lint([], nodes) == []
  {
    var reports := Lint([], nodes);
    assert |reports| == 0 || Justified([], reports[0]);
  }

  /** A name that no node binds keeps the module it was bound to. */
  lemma {:induction false} UnboundNameKeepsModule(table: seq<Restriction>, st: State, nodes: seq<Node>, x: string)
    requires forall i :: 0 <= i < |nodes| ==> !MayBind(nodes[i], x)
    ensures Get(RunFrom(table, st, nodes).namespaces, x) == Get(st.namespaces, x)
    decreases |nodes|
  {
    if |nodes| > 0 {
      UnboundNameKeepsModule(table, Step(table, st, nodes[0]), nodes[1..], x);
    }
  }

  /** `import * as X from 'm'` (or `import X from 'm'`), then any nodes that
      do not rebind `X`, then `X.p` with `p` on the entry for `m`: the
      member access is reported, as the last report of the file. */
  lemma NamespaceAccessAfterImport(table: seq<Restriction>, spec: ImportSpecifier, m: string, middle: seq<Node>, p: string)
    requires !spec.ImportNamed?
    requires m != "" && HasEntry(table, m) && p in FindRestriction(table, m).value.imports
    requires forall i :: 0 <= i < |middle| ==> !MayBind(middle[i], spec.local)
    ensures
      var prefix := [ImportDeclaration(m, [spec])] + middle;
      Lint(table, prefix + [MemberExpression(Identifier(spec.local), Identifier(p))]) ==
        Lint(table, prefix) + [Report(RestrictedNamespaceAccess, p, m)]
  {
    var x := spec.local;
    var s0 := State(map[], []);
    var prefix := [ImportDeclaration(m, [spec])] + middle;
    var access := MemberExpression(Identifier(x), Identifier(p));
    RunFromAppend(table, s0, prefix, [access]);
    RunFromAppend(table, s0, [ImportDeclaration(m, [spec])], middle);
    var s1 := RunFrom(table, s0, [ImportDeclaration(m, [spec])]);
    assert s1 == Step(table, s0, ImportDeclaration(m, [spec]));
    assert WholeModuleLocals([spec]) == {x};
    assert s1.namespaces[x] == m;
    UnboundNameKeepsModule(table, s1, middle, x);
    var s2 := RunFrom(table, s0, prefix);
    assert s2.namespaces[x] == m;
    NamespaceAccessReportedIff(table, s2, x, p);
  }

  /** When two imports bind the same local name, the later one wins. */
  lemma LaterBindingWins(table: seq<Restriction>, first: ImportSpecifier, m1: string, second: ImportSpecifier, m2: string)
    requires !first.ImportNamed? && !second.ImportNamed? && first.local == second.local
    requires HasEntry(table, m2)
    ensures Get(RunFrom(table, State(map[], []), [ImportDeclaration(m1, [first]), ImportDeclaration(m2, [second])]).namespaces, second.local) == Some(m2)
  {
    var nodes := [ImportDeclaration(m1, [first]), ImportDeclaration(m2, [second])];
    var s1 := Step(table, State(map[], []), nodes[0]);
    var s2 := CheckSpecifiers(FindRestriction(table, m2).value, m2, s1, [second]);
    assert Step(table, s1, nodes[1]) == s2;
    assert second.local in WholeModuleLocals([second]);
    assert nodes[1..] == [nodes[1]];
    assert RunFrom(table, s1, nodes[1..]) == RunFrom(table, s2, []);
    assert RunFrom(table, State(map[], []), nodes) == s2;
  }

  /** A `require` binding also overwrites an earlier import binding:
      `import X from 'm1'; const X = require('m2')` leaves `X` standing for `m2`. */
  lemma LaterRequireRebinds(table: seq<Restriction>, first: ImportSpecifier, m1: string, m2: string)
    requires !first.ImportNamed? && m2 != ""
    ensures var call := Call(Identifier("require"), [Literal(StringValue(m2))]);
      Get(RunFrom(table, State(map[], []), [ImportDeclaration(m1, [first]), VariableDeclarator(IdentifierPattern(first.local), Some(call))]).namespaces, first.local) == Some(m2)
  {
    var call := Call(Identifier("require"), [Literal(StringValue(m2))]);
    var nodes := [ImportDeclaration(m1, [first]), VariableDeclarator(IdentifierPattern(first.local), Some(call))];
    var s1 := Step(table, State(map[], []), nodes[0]);
    RequireBindsWithoutReport(table, s1, first.local, call);
    assert nodes[1..] == [nodes[1]];
    assert RunFrom(table, s1, nodes[1..]) == Step(table, s1, nodes[1]);
    assert RunFrom(table, State(map[], []), nodes) == RunFrom(table, s1, nodes[1..]);
  }
}

=== FILE: rule_cases.dfy ===
/** The rule's default restriction table and the scenarios of its rule
    tests, each stated as the exact list of reports the rule produces for
    the nodes of the test's code. */
module RuleCases {
  import opened Wrappers
  import opened RestrictedImports

  /** The APIs removed in React 19. */
  const ReactDomRemoved: seq<string> := [
    "findDOMNode",
    "render",
    "hydrate",
    "unmountComponentAtNode",
    "unstable_renderSubtreeIntoContainer",
    "unstable_flushControlled",
    "unstable_createEventHandle",
    "unstable_runWithPriority"
  ]

  /** The rule's default option. */
  const DefaultTable: seq<Restriction> := [
    Restriction("react-dom", ReactDomRemoved),
    Restriction("react", ["createFactory"])
  ]

  function Named(name: string): ImportSpecifier
  {
    ImportNamed(ExportIdentifier(name), name)
  }

  function Require(moduleName: string): Expr
  {
    Call(Identifier("require"), [Literal(StringValue(moduleName))])
  }

  function Key(name: string): PatternProperty
  {
    Property(Identifier(name))
  }

  /** `import { createPortal } from 'react-dom'` is allowed. */
  lemma AllowedNamedImport()
    ensures Lint(DefaultTable, [ImportDeclaration("react-dom", [Named("createPortal")])]) == []
  {
    var node := ImportDeclaration("react-dom", [Named("createPortal")]);
    LintOfShortFile(DefaultTable, node, node);
    NamedImportReportedIff(DefaultTable, State(map[], []), "react-dom", ExportIdentifier("createPortal"), "createPortal");
    assert FindRestriction(DefaultTable, "react-dom") == Some(DefaultTable[0]);
    assert "createPortal" !in ReactDomRemoved;
  }

  /** `import { useState } from 'react'` is allowed: `react` has an entry,
      but it does not list `useState`. */
  lemma UnlistedNameFromListedModule()
    ensures Lint(DefaultTable, [ImportDeclaration("react", [Named("useState")])]) == []
  {
    var node := ImportDeclaration("react", [Named("useState")]);
    LintOfShortFile(DefaultTable, node, node);
    NamedImportReportedIff(DefaultTable, State(map[], []), "react", ExportIdentifier("useState"), "useState");
    assert FindRestriction(DefaultTable, "react") == Some(DefaultTable[1]);
  }

  /** Importing any one of the removed `react-dom` APIs by name is
      reported once, against `react-dom`. */
  lemma EachRemovedReactDomImportReported(name: string)
    requires name in ReactDomRemoved
    ensures Lint(DefaultTable, [ImportDeclaration("react-dom", [Named(name)])]) ==
      [Report(RestrictedImport, name, "react-dom")]
  {
    var node := ImportDeclaration("react-dom", [Named(name)]);
    LintOfShortFile(DefaultTable, node, node);
    ReactDomEntry();
    NamedImportReportedIff(DefaultTable, State(map[], []), "react-dom", ExportIdentifier(name), name);
  }

  /** `import { createFactory } from 'react'` is reported against `react`. */
  lemma CreateFactoryReported()
    ensures Lint(DefaultTable, [ImportDeclaration("react", [Named("createFactory")])]) ==
      [Report(RestrictedImport, "createFactory", "react")]
  {
    var node := ImportDeclaration("react", [Named("createFactory")]);
    LintOfShortFile(DefaultTable, node, node);
    NamedImportReportedIff(DefaultTable, State(map[], []), "react", ExportIdentifier("createFactory"), "createFactory");
    assert FindRestriction(DefaultTable, "react") == Some(DefaultTable[1]);
  }

  /** `import { findDOMNode, render, createPortal } from 'react-dom'`
      reports the two removed names, in order. */
  lemma SeveralNamedImports()
    ensures Lint(DefaultTable, [ImportDeclaration("react-dom", [Named("findDOMNode"), Named("render"), Named("createPortal")])]) ==
      [Report(RestrictedImport, "findDOMNode", "react-dom"), Report(RestrictedImport, "render", "react-dom")]
  {
    var specifiers := [Named("findDOMNode"), Named("render"), Named("createPortal")];
    var node := ImportDeclaration("react-dom", specifiers);
    LintOfShortFile(DefaultTable, node, node);
    ReactDomEntry();
    ImportReports(DefaultTable, State(map[], []), "react-dom", specifiers);
    SeveralNamedImportNames();
    var reports := ReportsFor(RestrictedImport, ["findDOMNode", "render"], "react-dom");
    assert reports == [reports[0], reports[1]];
  }

  /** The first entry for `react-dom` is the first entry of the table. */
  lemma ReactDomEntry()
    ensures HasEntry(DefaultTable, "react-dom")
    ensures FindRestriction(DefaultTable, "react-dom") == Some(DefaultTable[0])
  {
    assert DefaultTable[0].moduleName == "react-dom";
  }

  /** Of `findDOMNode`, `render` and `createPortal`, the entry for
      `react-dom` lists the first two. */
  lemma SeveralNamedImportNames()
    ensures RestrictedNamedImports(DefaultTable[0], [Named("findDOMNode"), Named("render"), Named("createPortal")]) == ["findDOMNode", "render"]
  {
    var specifiers := [Named("findDOMNode"), Named("render"), Named("createPortal")];
    assert specifiers[1..] == [Named("render"), Named("createPortal")];
    assert specifiers[1..][1..] == [Named("createPortal")];
    assert "createPortal" !in ReactDomRemoved;
    assert RestrictedNamedImports(DefaultTable[0], [Named("createPortal")]) == [];
  }

  /** `import { findDOMNode as findNode } from 'react-dom'` reports the
      imported name, not the alias. */
  lemma AliasedImport()
    ensures Lint(DefaultTable, [ImportDeclaration("react-dom", [ImportNamed(ExportIdentifier("findDOMNode"), "findNode")])]) ==
      [Report(RestrictedImport, "findDOMNode", "react-dom")]
  {
    var node := ImportDeclaration("react-dom", [ImportNamed(ExportIdentifier("findDOMNode"), "findNode")]);
    LintOfShortFile(DefaultTable, node, node);
    NamedImportReportedIff(DefaultTable, State(map[], []), "react-dom", ExportIdentifier("findDOMNode"), "findNode");
    assert FindRestriction(DefaultTable, "react-dom") == Some(DefaultTable[0]);
  }

  /** `import * as ReactDOM from 'react-dom'` and `import ReactDOM from
      'react-dom'` alone are allowed; each binds `ReactDOM` to `react-dom`. */
  lemma ReactDomBound(spec: ImportSpecifier)
    requires spec == ImportNamespace("ReactDOM") || spec == ImportDefault("ReactDOM")
    ensures Step(DefaultTable, State(map[], []), ImportDeclaration("react-dom", [spec])) ==
      State(map["ReactDOM" := "react-dom"], [])
    ensures Lint(DefaultTable, [ImportDeclaration("react-dom", [spec])]) == []
  {
    var s0 := State(map[], []);
    LintOfShortFile(DefaultTable, ImportDeclaration("react-dom", [spec]), ImportDeclaration("react-dom", [spec]));
    assert FindRestriction(DefaultTable, "react-dom") == Some(DefaultTable[0]);
    var r := CheckSpecifiers(DefaultTable[0], "react-dom", s0, [spec]);
    assert r == CheckSpecifiers(DefaultTable[0], "react-dom", CheckSpecifier(DefaultTable[0], "react-dom", s0, spec), []);
  }

  /** `import * as ReactDOM from 'react-dom'; ReactDOM.findDOMNode()` is reported. */
  lemma NamespaceAccessReported()
    ensures Lint(DefaultTable, [ImportDeclaration("react-dom", [ImportNamespace("ReactDOM")]),
                                MemberExpression(Identifier("ReactDOM"), Identifier("findDOMNode"))]) ==
      [Report(RestrictedNamespaceAccess, "findDOMNode", "react-dom")]
  {
    var s1 := State(map["ReactDOM" := "react-dom"], []);
    LintOfShortFile(DefaultTable, ImportDeclaration("react-dom", [ImportNamespace("ReactDOM")]),
                    MemberExpression(Identifier("ReactDOM"), Identifier("findDOMNode")));
    ReactDomBound(ImportNamespace("ReactDOM"));
    NamespaceAccessReportedIff(DefaultTable, s1, "ReactDOM", "findDOMNode");
    assert FindRestriction(DefaultTable, "react-dom") == Some(DefaultTable[0]);
  }

  /** `import * as ReactDOM from 'react-dom'; ReactDOM.createPortal()` is allowed. */
  lemma NamespaceAccessAllowed()
    ensures Lint(DefaultTable, [ImportDeclaration("react-dom", [ImportNamespace("ReactDOM")]),
                                MemberExpression(Identifier("ReactDOM"), Identifier("createPortal"))]) == []
  {
    var s1 := State(map["ReactDOM" := "react-dom"], []);
    LintOfShortFile(DefaultTable, ImportDeclaration("react-dom", [ImportNamespace("ReactDOM")]),
                    MemberExpression(Identifier("ReactDOM"), Identifier("createPortal")));
    ReactDomBound(ImportNamespace("ReactDOM"));
    NamespaceAccessReportedIff(DefaultTable, s1, "ReactDOM", "createPortal");
    assert FindRestriction(DefaultTable, "react-dom") == Some(DefaultTable[0]);
    assert "createPortal" !in ReactDomRemoved;
  }

  /** `import ReactDOM from 'react-dom'; ReactDOM.render()` is reported. */
  lemma DefaultImportAccess()
    ensures Lint(DefaultTable, [ImportDeclaration("react-dom", [ImportDefault("ReactDOM")]),
                                MemberExpression(Identifier("ReactDOM"), Identifier("render"))]) ==
      [Report(RestrictedNamespaceAccess, "render", "react-dom")]
  {
    var s1 := State(map["ReactDOM" := "react-dom"], []);
    LintOfShortFile(DefaultTable, ImportDeclaration("react-dom", [ImportDefault("ReactDOM")]),
                    MemberExpression(Identifier("ReactDOM"), Identifier("render")));
    ReactDomBound(ImportDefault("ReactDOM"));
    NamespaceAccessReportedIff(DefaultTable, s1, "ReactDOM", "render");
    assert FindRestriction(DefaultTable, "react-dom") == Some(DefaultTable[0]);
  }

  /** `import ReactDOM from 'react-dom'; ReactDOM.createRoot()` is allowed. */
  lemma DefaultImportAccessAllowed()
    ensures Lint(DefaultTable, [ImportDeclaration("react-dom", [ImportDefault("ReactDOM")]),
                                MemberExpression(Identifier("ReactDOM"), Identifier("createRoot"))]) == []
  {
    var s1 := State(map["ReactDOM" := "react-dom"], []);
    LintOfShortFile(DefaultTable, ImportDeclaration("react-dom", [ImportDefault("ReactDOM")]),
                    MemberExpression(Identifier("ReactDOM"), Identifier("createRoot")));
    ReactDomBound(ImportDefault("ReactDOM"));
    NamespaceAccessReportedIff(DefaultTable, s1, "ReactDOM", "createRoot");
    assert FindRestriction(DefaultTable, "react-dom") == Some(DefaultTable[0]);
    assert "createRoot" !in ReactDomRemoved;
  }

  /** `const { createPortal } = ReactDOM` after a namespace import is allowed. */
  lemma DestructuringAllowed()
    ensures Lint(DefaultTable, [ImportDeclaration("react-dom", [ImportNamespace("ReactDOM")]),
                                VariableDeclarator(ObjectPattern([Key("createPortal")]), Some(Identifier("ReactDOM")))]) == []
  {
    var s1 := State(map["ReactDOM" := "react-dom"], []);
    var properties := [Key("createPortal")];
    LintOfShortFile(DefaultTable, ImportDeclaration("react-dom", [ImportNamespace("ReactDOM")]),
                    VariableDeclarator(ObjectPattern(properties), Some(Identifier("ReactDOM"))));
    ReactDomBound(ImportNamespace("ReactDOM"));
    DestructuringFromNamespace(DefaultTable, s1, properties, "ReactDOM");
    assert FindRestriction(DefaultTable, "react-dom") == Some(DefaultTable[0]);
    assert "createPortal" !in ReactDomRemoved;
    assert PropertyReports(DefaultTable[0], "react-dom", properties[1..]) == [];
  }

  /** `const { findDOMNode } = ReactDOM` after a namespace import is one
      `restrictedDestructuring` report. */
  lemma DestructuringReported()
    ensures Lint(DefaultTable, [ImportDeclaration("react-dom", [ImportNamespace("ReactDOM")]),
                                VariableDeclarator(ObjectPattern([Key("findDOMNode")]), Some(Identifier("ReactDOM")))]) ==
      [Report(RestrictedDestructuring, "findDOMNode", "react-dom")]
  {
    var s1 := State(map["ReactDOM" := "react-dom"], []);
    var properties := [Key("findDOMNode")];
    LintOfShortFile(DefaultTable, ImportDeclaration("react-dom", [ImportNamespace("ReactDOM")]),
                    VariableDeclarator(ObjectPattern(properties), Some(Identifier("ReactDOM"))));
    ReactDomBound(ImportNamespace("ReactDOM"));
    DestructuringFromNamespace(DefaultTable, s1, properties, "ReactDOM");
    assert FindRestriction(DefaultTable, "react-dom") == Some(DefaultTable[0]);
    assert PropertyReports(DefaultTable[0], "react-dom", properties[1..]) == [];
  }

  /** `const { render, createPortal, findDOMNode } = ReactDOM` after a
      namespace import reports `render` and `findDOMNode`, in order. */
  lemma DestructuringMixed()
    ensures Lint(DefaultTable, [ImportDeclaration("react-dom", [ImportNamespace("ReactDOM")]),
                                VariableDeclarator(ObjectPattern([Key("render"), Key("createPortal"), Key("findDOMNode")]), Some(Identifier("ReactDOM")))]) ==
      [Report(RestrictedDestructuring, "render", "react-dom"), Report(RestrictedDestructuring, "findDOMNode", "react-dom")]
  {
    var s1 := State(map["ReactDOM" := "react-dom"], []);
    var properties := [Key("render"), Key("createPortal"), Key("findDOMNode")];
    LintOfShortFile(DefaultTable, ImportDeclaration("react-dom", [ImportNamespace("ReactDOM")]),
                    VariableDeclarator(ObjectPattern(properties), Some(Identifier("ReactDOM"))));
    ReactDomBound(ImportNamespace("ReactDOM"));
    DestructuringFromNamespace(DefaultTable, s1, properties, "ReactDOM");
    assert FindRestriction(DefaultTable, "react-dom") == Some(DefaultTable[0]);
    MixedPatternReports();
  }

  /** The listed keys of `{ render, createPortal, findDOMNode }` for `react-dom`. */
  lemma MixedPatternReports()
    ensures PropertyReports(DefaultTable[0], "react-dom", [Key("render"), Key("createPortal"), Key("findDOMNode")]) ==
      [Report(RestrictedDestructuring, "render", "react-dom"), Report(RestrictedDestructuring, "findDOMNode", "react-dom")]
  {
    assert "createPortal" !in ReactDomRemoved;
  }

  /** With a table of two one-name entries, imports from both modules are
      reported in file order. */
  lemma TwoModules()
    ensures Lint([Restriction("react-dom", ["findDOMNode"]), Restriction("react", ["useEffect"])],
                 [ImportDeclaration("react-dom", [Named("findDOMNode")]), ImportDeclaration("react", [Named("useEffect")])]) ==
      [Report(RestrictedImport, "findDOMNode", "react-dom"), Report(RestrictedImport, "useEffect", "react")]
  {
    var table := [Restriction("react-dom", ["findDOMNode"]), Restriction("react", ["useEffect"])];
    var s0 := State(map[], []);
    var s1 := s0.(reports := [Report(RestrictedImport, "findDOMNode", "react-dom")]);
    LintOfShortFile(table, ImportDeclaration("react-dom", [Named("findDOMNode")]), ImportDeclaration("react", [Named("useEffect")]));
    NamedImportReportedIff(table, s0, "react-dom", ExportIdentifier("findDOMNode"), "findDOMNode");
    NamedImportReportedIff(table, s1, "react", ExportIdentifier("useEffect"), "useEffect");
    assert FindRestriction(table, "react-dom") == Some(table[0]);
    assert FindRestriction(table, "react") == Some(table[1]);
  }

  /** `const ReactDOM = require('react-dom'); ReactDOM.render()` is
      reported like the import form. */
  lemma RequireThenAccess()
    ensures Lint(DefaultTable, [VariableDeclarator(IdentifierPattern("ReactDOM"), Some(Require("react-dom"))),
                                MemberExpression(Identifier("ReactDOM"), Identifier("render"))]) ==
      [Report(RestrictedNamespaceAccess, "render", "react-dom")]
  {
    var s0 := State(map[], []);
    var s1 := State(map["ReactDOM" := "react-dom"], []);
    LintOfShortFile(DefaultTable, VariableDeclarator(IdentifierPattern("ReactDOM"), Some(Require("react-dom"))),
                    MemberExpression(Identifier("ReactDOM"), Identifier("render")));
    RequireBindsWithoutReport(DefaultTable, s0, "ReactDOM", Require("react-dom"));
    NamespaceAccessReportedIff(DefaultTable, s1, "ReactDOM", "render");
    assert FindRestriction(DefaultTable, "react-dom") == Some(DefaultTable[0]);
  }

  /** `require('react-dom').render(el, root)` as a statement is not reported:
      the `require` member form is checked only as a declarator's initialiser. */
  lemma RequireMemberStatementIgnored()
    ensures Lint(DefaultTable, [MemberExpression(Require("react-dom"), Identifier("render"))]) == []
  {
    var node := MemberExpression(Require("react-dom"), Identifier("render"));
    LintOfShortFile(DefaultTable, node, node);
    NonIdentifierObjectIsInert(DefaultTable, State(map[], []), Require("react-dom"), Identifier("render"));
  }

  /** `const f = require('react').findDOMNode` is reported against `react`,
      although only the `react-dom` entry lists `findDOMNode`. */
  lemma RequireMemberFromOtherList()
    ensures Lint(DefaultTable, [VariableDeclarator(IdentifierPattern("f"), Some(Member(Require("react"), Identifier("findDOMNode"))))]) ==
      [Report(RestrictedImport, "findDOMNode", "react")]
  {
    var node := VariableDeclarator(IdentifierPattern("f"), Some(Member(Require("react"), Identifier("findDOMNode"))));
    LintOfShortFile(DefaultTable, node, node);
    RequireMemberChecksEveryList(DefaultTable, State(map[], []), IdentifierPattern("f"), Require("react"), "findDOMNode");
    assert "findDOMNode" in DefaultTable[0].imports;
    assert DefaultTable[1].moduleName == "react";
  }
}

=== FILE: strings.dfy ===
/** The JavaScript string operations the linter relies on, over `seq<char>`:
    `split` and `join` with a one-character separator, `includes`,
    `startsWith`/`endsWith`, and ASCII lower-casing as used by a regular
    expression with the `i` flag. */
module Strings {

  /** `s.split(sep)` for a one-character separator: the pieces between the
      separators, in order. There is always at least one piece, so
      `"".split("/")` is `[""]` and `"a/".split("/")` is `["a", ""]`. */
  function Split(s: string, sep: char): (parts: seq<string>)
    ensures |parts| >= 1
    ensures NoneContains(parts, sep)
    decreases |s|
  {
    if |s| == 0 then [""]
    else
      var rest := Split(s[1..], sep);
      if s[0] == sep then [""] + rest
      else [[s[0]] + rest[0]] + rest[1..]
  }

  /** `parts.join(sep)`: the pieces with one separator between neighbours.
      `SplitJoin` and `JoinSplit` show it is the inverse of `Split`, and
      `JoinAppend` that it distributes over concatenation. */
  function Join(parts: seq<string>, sep: char): string
    decreases |parts|
  {
    if |parts| == 0 then ""
    else if |parts| == 1 then parts[0]
    else parts[0] + [sep] + Join(parts[1..], sep)
  }

  /** Every occurrence of `a` in `s` replaced by `b`. */
  function Replace(s: string, a: char, b: char): (r: string)
    ensures |r| == |s|
    ensures forall i :: 0 <= i < |s| ==> r[i] == (if s[i] == a then b else s[i])
    decreases |s|
  {
    if |s| == 0 then ""
    else [if s[0] == a then b else s[0]] + Replace(s[1..], a, b)
  }

  /** Splitting on `a` and joining with `b` replaces each `a` by `b`; this
      is what `s.split("\\").join("/")` computes. */
  lemma {:induction false} JoinSplitReplaces(s: string, a: char, b: char)
    ensures Join(Split(s, a), b) == Replace(s, a, b)
    decreases |s|
  {
    if |s| > 0 {
      var rest := Split(s[1..], a);
      JoinSplitReplaces(s[1..], a, b);
      if s[0] == a {
        assert Split(s, a) == [""] + rest;
        assert ([""] + rest)[1..] == rest;
      } else {
        var parts := Split(s, a);
        assert parts == [[s[0]] + rest[0]] + rest[1..];
        if |rest| == 1 {
          assert Join(parts, b) == [s[0]] + rest[0];
        } else {
          assert parts[1..] == rest[1..];
          assert Join(rest, b) == rest[0] + [b] + Join(rest[1..], b);
          assert Join(parts, b) == [s[0]] + rest[0] + [b] + Join(rest[1..], b);
        }
      }
    }
  }

  /** Splitting and joining on the same separator gives the string back. */
  lemma JoinSplit(s: string, sep: char)
    ensures Join(Split(s, sep), sep) == s
  {
    JoinSplitReplaces(s, sep, sep);
    assert Replace(s, sep, sep) == s;
  }

  /** A piece without the separator extends the first piece of what follows. */
  lemma {:induction false} SplitPrefix(w: string, t: string, sep: char)
    requires sep !in w
    ensures Split(w + t, sep) == [w + Split(t, sep)[0]] + Split(t, sep)[1..]
    decreases |w|
  {
    if |w| > 0 {
      assert (w + t)[1..] == w[1..] + t;
      SplitPrefix(w[1..], t, sep);
      assert [w[0]] + (w[1..] + Split(t, sep)[0]) == w + Split(t, sep)[0];
    } else {
      assert w + t == t;
      assert w + Split(t, sep)[0] == Split(t, sep)[0];
      assert Split(t, sep) == [Split(t, sep)[0]] + Split(t, sep)[1..];
    }
  }

  /** Joining pieces that avoid the separator and splitting again gives the
      pieces back: `Split` is the inverse of `Join`. */
  lemma {:induction false} SplitJoin(parts: seq<string>, sep: char)
    requires |parts| >= 1
    requires NoneContains(parts, sep)
    ensures Split(Join(parts, sep), sep) == parts
    decreases |parts|
  {
    if |parts| == 1 {
      SplitPrefix(parts[0], "", sep);
      assert parts[0] + "" == parts[0];
    } else {
      var tail := Join(parts[1..], sep);
      SplitJoin(parts[1..], sep);
      assert Split([sep] + tail, sep) == [""] + Split(tail, sep);
      SplitPrefix(parts[0], [sep] + tail, sep);
      assert parts[0] + [sep] + tail == parts[0] + ([sep] + tail);
      assert parts[0] + "" == parts[0];
      assert [parts[0]] + parts[1..] == parts;
    }
  }

  /** Joining two non-empty piece lists puts one separator between them. */
  lemma {:induction false} JoinAppend(a: seq<string>, b: seq<string>, sep: char)
    requires |a| >= 1 && |b| >= 1
    ensures Join(a + b, sep) == Join(a, sep) + [sep] + Join(b, sep)
    decreases |a|
  {
    if |a| == 1 {
      assert (a + b)[1..] == b;
    } else {
      assert (a + b)[1..] == a[1..] + b;
      JoinAppend(a[1..], b, sep);
    }
  }

  /** No piece contains `c`. */
  predicate NoneContains(parts: seq<string>, c: char)
  {
    forall i :: 0 <= i < |parts| ==> c !in parts[i]
  }

  /** A character absent from a string is absent from each of its pieces. */
  lemma {:induction false} SplitAvoids(s: string, sep: char, c: char)
    requires c !in s
    ensures NoneContains(Split(s, sep), c)
    decreases |s|
  {
    if |s| > 0 {
      assert c !in s[1..];
      SplitAvoids(s[1..], sep, c);
    }
  }

  /** A character that is neither the separator nor in any piece is not in the join. */
  lemma {:induction false} JoinAvoids(parts: seq<string>, sep: char, c: char)
    requires c != sep
    requires NoneContains(parts, c)
    ensures c !in Join(parts, sep)
    decreases |parts|
  {
    if |parts| > 1 {
      JoinAvoids(parts[1..], sep, c);
    }
  }

  predicate StartsWith(s: string, prefix: string)
  {
    |prefix| <= |s| && s[..|prefix|] == prefix
  }

  predicate EndsWith(s: string, suffix: string)
  {
    |suffix| <= |s| && s[|s| - |suffix|..] == suffix
  }

  /** `sub` occurs in `s` starting at index `i`. */
  predicate OccursAt(s: string, sub: string, i: nat)
  {
    i + |sub| <= |s| && s[i..i + |sub|] == sub
  }

  /** `s.includes(sub)`: a left-to-right search for an occurrence. */
  function Includes(s: string, sub: string): (b: bool)
    ensures b <==> exists i :: OccursAt(s, sub, i)
    decreases |s|
  {
    if |s| < |sub| then
      assert forall i :: !OccursAt(s, sub, i);
      false
    else if s[..|sub|] == sub then
      assert OccursAt(s, sub, 0);
      true
    else
      assert forall i: nat :: OccursAt(s[1..], sub, i) <==> OccursAt(s, sub, i + 1) by {
        forall i: nat ensures OccursAt(s[1..], sub, i) <==> OccursAt(s, sub, i + 1) {
          if i + |sub| <= |s[1..]| {
            assert s[1..][i..i + |sub|] == s[i + 1..i + 1 + |sub|];
          }
        }
      }
      assert forall i: nat :: OccursAt(s, sub, i) ==> i > 0;
      var found := Includes(s[1..], sub);
      assert found ==> exists i :: OccursAt(s, sub, i) by {
        if found {
          var i: nat :| OccursAt(s[1..], sub, i);
          assert OccursAt(s, sub, i + 1);
        }
      }
      assert (exists i :: OccursAt(s, sub, i)) ==> found by {
        if exists i :: OccursAt(s, sub, i) {
          var i: nat :| OccursAt(s, sub, i);
          assert OccursAt(s[1..], sub, i - 1);
        }
      }
      found
  }

  /** ASCII lower-casing of one character; every other character is kept.
      A JavaScript regular expression with the `i` flag and without the `u`
      flag folds exactly these letters for an ASCII pattern. */
  function ToLowerChar(c: char): char
  {
    if 'A' <= c <= 'Z' then (c as int - 'A' as int + 'a' as int) as char else c
  }

  function ToLower(s: string): (r: string)
    ensures |r| == |s|
    ensures forall i :: 0 <= i < |s| ==> r[i] == ToLowerChar(s[i])
    decreases |s|
  {
    if |s| == 0 then "" else [ToLowerChar(s[0])] + ToLower(s[1..])
  }
}

=== FILE: wrappers.dfy ===
/** Failure-carrying datatypes shared by the rest of the model.
    A JavaScript `undefined` becomes `None`; a thrown error becomes `Failure`. */
module Wrappers {

  datatype Option<+T> = None | Some(value: T)

  datatype Result<+R, +E> = Success(value: R) | Failure(error: E)

  /** `map.get(key)` on a JavaScript `Map`: the stored value, or undefined. */
  function Get<K, V>(m: map<K, V>, key: K): (r: Option<V>)
    ensures r.Some? <==> key in m
    ensures r.Some? ==> r.value == m[key]
  {
    if key in m then Some(m[key]) else None
  }
}
